=== FILE: README.md ===
# QueueFlow-Pro campus passes, in Dafny

QueueFlow-Pro issues digital campus passes. A signed-in student requests a
pass for one of six destinations. The pass carries a QR code holding a signed
token. An administrator scans the code and receives a four-digit approval code
valid for five minutes, and submitting that code completes the pass. The
student's dashboard is told of the completion over a socket.

This project models the core of that system:

- the server's pass handlers, as a state machine over the pass store, the
  in-memory approval codes, the armed code timers and the outgoing
  notifications (`Passes`, `PassProtocol`, `PassModel`);
- registration and sign-in, including the environment's override admin
  (`Auth`);
- the client's pure rules: joining API URLs and choosing error messages
  (`ApiClient`), the route guard (`Routing`), the dashboard's list reducers
  (`Dashboard`), and the admin console's recent-approvals panel
  (`AdminHistory`);
- the shared primitives these use: JavaScript's `trim`, `toLowerCase` and
  `Number.toString` (`Text`); `filter`, `findIndex`, a stable `sort` and
  `slice` (`Seqs`); signed tokens after RFC 7519 (`Tokens`); and optional
  values (`Wrappers`).

Timestamps are integer milliseconds. `Date.now()` ids and `Math.random()` draws
are parameters of the operations that use them. A `setTimeout` is an armed
`Timer` in the state, and it fires through the explicit event `CodeTimeout`.
The file store becomes a sequence of records. Password hashing and token
signatures are abstract:

- a digest remembers its password;
- a token remembers its claims, its key and its `exp` second;
- a token decodes only under its own key, and only while the clock, in whole
  seconds, is before `exp`.

Behaviours of the code worth knowing, each proved about the model:

- **Codes.** An approval code is `Math.floor(1000 + Math.random() * 9000)`
  rendered in decimal. It is therefore 1000 to 9999 and never has a leading
  zero.
- **Timers.** Code timers are never cancelled. A timer armed by an earlier
  scan deletes a code issued by a later scan (`StaleTimerClearsNewerCode`). A
  code also outlives a dropped pass (`DroppedPassKeepsCode`).
- **Expiry on scan.**
  - The pass's own QR token is signed with `expiresIn: '3h'`. When it is
    signed in the same second as `createdAt` is read, its `exp` falls no
    later than the pass's `expiresAt`.
  - The token is checked before the wall clock is. When both checks read the
    same instant, a scan after `expiresAt` is refused as "Invalid QR Code"
    and the pass stays pending (`OwnTokenLapsesBeforeExpiryCheck`).
  - The source reads the clock separately for each check. When the token is
    signed in the same second as `createdAt`, the expired branch is reachable
    only in the gap between those two readings: `ExpiryGapAfterLastDecode`
    shows that the gap must be at least `createdAt % 1000 + 2` milliseconds.
    When `jwt.sign` reads a later second, `exp` can fall after `expiresAt`,
    and a scan in between takes the expired branch even with one reading
    (`LaterSigningSecondReachesExpiredBranch`).
- **Order.** `GET /passes/mine` answers in store order. Only the dashboard
  sorts its copy, newest first. The dashboard's reducers keep that sorted
  page equal to a fresh fetch (`ApprovalPageInSync`, `DropPageInSync`,
  `CreatePageInSync`).
- **Approval.** Approval checks no status. A pass stored as expired, or
  already completed, is completed again by a matching code
  (`ExpiredPassCanBeCompleted`, `MissingCodeMatchesMissingEntry`).

## Model

| member | source | states |
|---|---|---|
| Passes.Create | server/routes/passes.js:14-54 | an unknown destination gives 400 and an existing pending pass of the caller gives 400, both leaving the state unchanged; otherwise exactly one pending record is appended with the caller as owner, three hours of validity, and a QR token that decodes at creation to its own id |
| Passes.PassType | server/routes/passes.js:37 | the pass type is the requested one when it is non-empty, and `standard` when it is absent or empty |
| Passes.ValidPurpose | server/routes/passes.js:17-19 | a destination is accepted exactly when it is present and one of the six |
| Passes.HasPending | server/routes/passes.js:24-25 | some stored pass of the user is pending |
| Passes.ListMine | server/routes/passes.js:57-61 | the reply holds only the caller's passes, each exactly as often as it is stored |
| Passes.ListAll | server/routes/passes.js:64-67 | the reply holds every stored pass, with its multiplicity |
| Passes.ScannedId | server/routes/passes.js:73-74 | a scan names a pass exactly when the token decodes under the secret and carries a pass id |
| Passes.FindById | server/routes/passes.js:77 | a lookup by id finds the first record with that id, and finds nothing exactly when no record has it |
| Passes.FindOwned | server/routes/passes.js:162 | a drop looks for the first record matching both id and owner |
| Passes.FindUser | server/routes/passes.js:107 | the student is the first account with the pass's owner id, and none is found exactly when no account has it |
| Passes.Contact | server/routes/passes.js:106-113 | a found student's non-empty email and role are passed through; a missing student or empty field gives `N/A` for the email and `user` for the role, so neither is ever empty |
| Passes.Verify | server/routes/passes.js:70-123 | an undecodable token gives 400 and no such pass gives 404; a non-pending pass gives 400 naming its status; a pending pass past `expiresAt` is stored as expired and gives 400; otherwise the reply carries the pass's fields and its owner's contact (email and role, with the `N/A`/`user` fallbacks), and a four-digit code with no leading zero, worth the draw, replaces any earlier code and one five-minute timer is armed; every refusal leaves the codes, timers and notifications unchanged |
| Passes.Approve | server/routes/passes.js:126-153 | the stored and the entered code are compared as optional values; a mismatch gives 400 and a missing pass gives 404, both changing nothing; success completes the first pass with that id at `now` whatever its status, deletes its code, keeps the timers, and pushes the completed pass to its owner's room, replying "Pass approved successfully" |
| Passes.Drop | server/routes/passes.js:156-181 | no record of the caller with that id gives 404 and a non-pending one gives 400, both changing nothing; success replies "Pass dropped successfully", removes exactly that record, keeps the others in order, and leaves the codes and timers alone |
| Passes.CodeTimeout | server/routes/passes.js:103 | a firing timer deletes whatever code its pass has now, keeps every other code, disarms only itself, and touches no pass |
| PassModel.StatusName | server/routes/passes.js:84 | each status is reported under its own name: `pending`, `completed` or `expired`, so no two statuses share one |
| Tokens.JwtSecret | server/routes/passes.js:8 | the signing key is the configured secret when it is non-empty, else `fallback_secret` |
| Tokens.Sign | server/routes/passes.js:44 | a signed token carries its claims and key, and `exp` is the signing second plus the lifetime |
| Tokens.Decode | server/routes/passes.js:73 | a token decodes exactly when it is well formed, signed under the key, and before its `exp` second |
| Tokens.SignDecodeRoundTrip | server/routes/passes.js:44-74 | within its lifetime a signed token decodes to the claims it was signed with |
| Tokens.SignedTokenLapses | server/routes/passes.js:44 | once the lifetime has passed since signing, the token no longer decodes |
| Tokens.ForeignKeyRejected | server/routes/passes.js:73 | a token signed under another key never decodes |
| PassProtocol.CreateKeepsInv | server/routes/passes.js:24-47 | creating keeps the invariants: at most one pending pass per user, three-hour windows, completion stamps, tokens bound to ids, well-formed codes |
| PassProtocol.VerifyKeepsInv | server/routes/passes.js:87-103 | scanning keeps the invariants, including when it stores a pass as expired |
| PassProtocol.ApproveKeepsInv | server/routes/passes.js:140-145 | approving keeps the invariants; the completed pass carries its completion time |
| PassProtocol.DropKeepsInv | server/routes/passes.js:173 | dropping keeps the invariants |
| PassProtocol.StepKeepsInv | server/routes/passes.js:14-181 | every enabled request or timer keeps the invariants |
| PassProtocol.RunKeepsInv | server/routes/passes.js:14-181 | every run of requests and timers from a state with the invariants ends in one |
| PassProtocol.CreateFreshIdStaysUnique | server/routes/passes.js:33 | a fresh id for a created pass keeps pass ids unique |
| PassProtocol.DropKeepsIdsUnique | server/routes/passes.js:173 | dropping keeps pass ids unique |
| PassProtocol.FreshIdsStayUnique | server/routes/passes.js:33 | every step keeps pass ids unique, given a fresh id for each creation |
| PassProtocol.ReadsChangeNothing | server/routes/passes.js:57-67 | listing changes no state, so reading never expires a pass |
| PassProtocol.InPlaceFollowsEdges | server/routes/passes.js:88-141 | a store whose records keep their ids and owners and move only along status edges follows the edges |
| PassProtocol.CreateFollowsEdges | server/routes/passes.js:24-47 | creating keeps every earlier record in place and adds at most one record at the end, pending and carrying the new id; every record has an origin along a status edge |
| PassProtocol.VerifyFollowsEdges | server/routes/passes.js:87-95 | a scan keeps the length; each record is unchanged or was pending and differs only in becoming expired |
| PassProtocol.ApproveFollowsEdges | server/routes/passes.js:140-141 | an approval keeps the length; each record is unchanged or has the approved id and differs only in becoming completed at `now` |
| PassProtocol.DropFollowsEdges | server/routes/passes.js:173 | after a drop the store is unchanged or is the old store with one pending record of the caller's, with that id, cut out and the rest in order |
| PassProtocol.StepFollowsEdges | server/routes/passes.js:88-141 | every record after a step is a new pending pass or an earlier record with the same id and owner; statuses move only out of pending or into completed |
| PassProtocol.ApprovalCodeIsSingleUse | server/routes/passes.js:129-145 | a code that completed a pass is refused when submitted again |
| PassProtocol.MissingCodeMatchesMissingEntry | server/routes/passes.js:129 | with no code stored, a request with no code completes the pass, and does so again |
| PassProtocol.WrongCodesChangeNothing | server/routes/passes.js:129-131 | any number of wrong codes leaves the whole state unchanged |
| PassProtocol.DroppedPassKeepsCode | server/routes/passes.js:129-173 | a dropped pass keeps its code; submitting it then gives 404 and leaves it in place |
| PassProtocol.StaleTimerClearsNewerCode | server/routes/passes.js:99-103 | after two scans of one pass, the first scan's timer is still armed and deletes the code the second scan issued |
| PassProtocol.ExpiredPassCanBeCompleted | server/routes/passes.js:87-141 | a pass stored as expired by a late scan is completed by the code issued before |
| PassProtocol.OwnTokenLapsesBeforeExpiryCheck | server/routes/passes.js:44-95 | once a pass is past `expiresAt`, scanning its own token is refused as an invalid QR code and nothing changes |
| PassProtocol.ScanOfFreshPass | server/routes/passes.js:14-119 | a new pass scanned within its token's lifetime yields a code stored under its id, changes no record and notifies no one |
| PassProtocol.ApproveThenRescan | server/routes/passes.js:77-145 | submitting the stored code completes the pass, and a scan naming it is then refused as already completed |
| PassProtocol.ExpiryGapAfterLastDecode | server/routes/passes.js:29-95 | the last instant a pass's own token decodes is `createdAt % 1000 + 2` ms before the wall-clock test first sees the pass as expired |
| PassProtocol.LaterSigningSecondReachesExpiredBranch | server/routes/passes.js:29-95 | a token signed in a later second than `createdAt` still decodes one millisecond after `expiresAt`, so a scan with one clock reading stores the pending pass as expired and refuses it with 400 |
| PassProtocol.RequestScanApprove | server/routes/passes.js:14-153 | request, scan and approve in turn complete the pass at the approval time and notify its owner; a rescan then reports it already completed |
| Auth.NormalizeEmail | server/routes/auth.js:19 | a normalised email is no longer than the input, has no upper-case letter, and is empty exactly when the input was all white space |
| Auth.FindByEmail | server/routes/auth.js:22 | the lookup finds the first account whose lower-cased email equals the normalised one, and nothing exactly when none does |
| Auth.AdminEmail | server/routes/auth.js:59 | an unset admin email is the empty string; a set one is normalised like a login email |
| Auth.AdminPassword | server/routes/auth.js:61 | the admin password is trimmed, and empty exactly when unset or all white space |
| Auth.RoleMismatchMessage | server/routes/auth.js:82-85 | the 403 message starts by naming the stored role and ends by naming it in upper case |
| Auth.Register | server/routes/auth.js:10-44 | a missing field gives 400, and an email some account already has (ignoring case) gives 400; otherwise one account with the trimmed name, normalised email, hashed password and role `user` is appended |
| Auth.RegisteredRole | server/routes/auth.js:64-71 | a stored account's role wins; otherwise the admin email resolves to `admin`; otherwise there is no role |
| Auth.Authenticate | server/routes/auth.js:89-105 | the stored password is tried first; the override admin authenticates only when that fails and the email and exact password are the environment's |
| Auth.ProfileOf | server/routes/auth.js:98-124 | the reply's user is the account's public fields, or the synthetic admin: id `system-admin`, name `System Admin`, role `admin`, under the normalised email |
| Auth.Login | server/routes/auth.js:47-130 | refusals come in order: missing fields 400, no role 400, role mismatch 403 with the mismatch message, then 400 "Invalid credentials" when the password authenticates nobody; success returns the profile and a 24-hour session token for it |
| Auth.LoginSucceeds | server/routes/auth.js:76-125 | sign-in succeeds when a role resolves and matches and someone authenticates |
| Auth.NormalizedIsLower | server/routes/auth.js:19 | a normalised email is already lower case |
| Auth.RegisterKeepsEmailsDistinct | server/routes/auth.js:19-36 | registration keeps stored emails distinct, ignoring case |
| Auth.RegisterAcceptsBlankEmail | server/routes/auth.js:15-30 | an all-white-space email passes the presence check and is stored as the empty string |
| Auth.RegisterNeverGrantsAdmin | server/routes/auth.js:32 | every account registration adds has role `user` |
| Auth.AppendedAccountFound | server/routes/auth.js:65 | an account appended under an email no other account has is the one a lookup by that email finds |
| Auth.RegisterThenLogin | server/routes/auth.js:10-125 | right after registering, signing in with the same email and password as `user` returns the new account |
| Auth.RoleCheckPrecedesPassword | server/routes/auth.js:81-95 | a role mismatch is refused whatever password is given |
| Auth.EnvOverrideShadowsStoredUser | server/routes/auth.js:89-105 | a stored `user` account under the admin email, given the admin password, signs in as the synthetic admin |
| Auth.BlankNormalizesToUnsetAdminEmail | server/routes/auth.js:55-59 | an all-white-space email normalises to the empty string, which is the admin email when none is configured |
| Auth.OverrideAuthenticatesWithoutAccount | server/routes/auth.js:98-105 | with no stored account, the admin email and password authenticate the synthetic admin |
| Auth.OverrideSignsInAsAdmin | server/routes/auth.js:67-125 | with no stored account, the override admin signs in as `system-admin` with role `admin` |
| Auth.BlankEmailMatchesUnsetAdminEmail | server/routes/auth.js:55-105 | with no admin email configured, a blank email with the admin password signs in as the synthetic admin |
| Wrappers.Lookup | server/routes/passes.js:129 | a map lookup is a value exactly when the key is present |
| Text.Trim | server/routes/auth.js:19 | a trimmed string has no white space at either end, and is empty exactly when the input was all white space |
| Text.TrimCutsSpace | server/routes/auth.js:19 | trimming cuts only white space, and only from the two ends |
| Text.TrimIdempotent | server/routes/auth.js:29 | trimming twice is trimming once |
| Text.ToLower | server/routes/auth.js:19 | lower-casing keeps the length and maps every letter to lower case |
| Text.ToLowerIdempotent | server/routes/auth.js:22 | lower-casing twice is lower-casing once |
| Text.ToUpper | server/routes/auth.js:84 | upper-casing keeps the length and maps every letter to upper case |
| Text.DecimalString | server/routes/passes.js:99 | a decimal numeral is a non-empty string of digits that starts with `0` only for zero |
| Text.DecimalRoundTrip | server/routes/passes.js:99 | reading a rendered numeral back gives the number |
| Text.DecimalInjective | server/routes/passes.js:99 | distinct numbers render differently |
| Text.FourDigitNumeral | server/routes/passes.js:99 | a draw from 1000 to 9999 renders as four digits with no leading zero |
| Seqs.Filter | server/routes/passes.js:59 | a filter keeps only accepted elements and never more than the input holds |
| Seqs.FilterCounts | server/routes/passes.js:59 | a filter keeps each accepted value exactly as often as the input holds it, and no rejected value |
| Seqs.FilterConcat | server/routes/passes.js:59 | filtering a concatenation filters each part, so order is kept |
| Seqs.FilterKeepsAll | client/src/pages/Dashboard.jsx:67 | a filter that accepts everything returns its input |
| Seqs.FilterCommutes | client/src/pages/Dashboard.jsx:67 | two filters give the same result in either order |
| Seqs.RemoveIsFilter | server/routes/passes.js:173 | splicing out the only rejected element is filtering |
| Seqs.FindIndex | server/routes/passes.js:134 | `findIndex` gives the first position that satisfies the test, or nothing exactly when none does |
| Seqs.Insert | client/src/pages/Dashboard.jsx:42 | inserting into a sorted list keeps it sorted and adds exactly one element |
| Seqs.SortDesc | client/src/pages/Dashboard.jsx:42 | sorting by a key yields descending keys and a permutation of the input |
| Seqs.FilterSorted | client/src/pages/Dashboard.jsx:67 | filtering a sorted list leaves it sorted |
| Seqs.FilterInsert | client/src/pages/Dashboard.jsx:42-67 | filtering after inserting into a sorted list is inserting into the filtered list, or nothing when the element is rejected |
| Seqs.FilterSortDesc | client/src/pages/Dashboard.jsx:42-67 | filtering a sorted copy equals sorting a filtered copy |
| Seqs.SortDescNewestLast | client/src/pages/Dashboard.jsx:42-55 | sorting a list whose last element outranks all others puts that element first and the rest as before |
| Seqs.Take | client/src/pages/Admin.jsx:62 | `slice(0, n)` is the first `n` elements, or all when there are fewer |
| Seqs.TakeOfSorted | client/src/pages/Admin.jsx:61-62 | a prefix of a sorted list is sorted and a sub-multiset of it |
| Seqs.TakeKeepsTop | client/src/pages/Admin.jsx:61-62 | a value a prefix of a sorted list leaves out ranks no higher than anything in it, and the prefix then has full length |
| ApiClient.ConfiguredBase | client/src/context/AuthContext.jsx:12 | an unset base is the empty string; a set one is used as given |
| ApiClient.CleanBase | client/src/context/AuthContext.jsx:13 | one trailing slash is removed from the base, and only when present |
| ApiClient.GetApiUrl | client/src/context/AuthContext.jsx:11-17 | an empty path gives the cleaned base; any other path follows it, with a `/` added when it has none |
| ApiClient.GetApiUrlFrames | client/src/context/AuthContext.jsx:11-17 | every URL starts with the cleaned base and ends with the path as given |
| ApiClient.LeadingSlashOptional | client/src/context/AuthContext.jsx:15 | a path with or without its leading slash joins to the same URL |
| ApiClient.TrailingSlashOptional | client/src/context/AuthContext.jsx:13 | one trailing slash on the base changes nothing, and a second one survives |
| ApiClient.UnsetBaseGivesPath | client/src/context/AuthContext.jsx:12-16 | with no base the URL is the path with a leading slash |
| ApiClient.FailureMessage | client/src/context/AuthContext.jsx:48 | the server's non-empty message wins; otherwise a sent request gives the network message, and otherwise the fallback |
| ApiClient.LoginErrorMessage | client/src/context/AuthContext.jsx:48 | a failed sign-in always shows a non-empty message: the server's, the network one, or `Login failed` |
| ApiClient.RegisterErrorMessage | client/src/context/AuthContext.jsx:59 | a failed registration always shows a non-empty message: the server's, the network one, or `Registration failed` |
| ApiClient.MessagesDifferOnlyInFallback | client/src/context/AuthContext.jsx:48-59 | the two messages agree exactly when the server or the network explains the failure; an empty server message counts as none |
| Routing.Guard | client/src/App.jsx:13-31 | loading shows the spinner; no user goes to `/login`; otherwise the page renders exactly when the user's admin-ness equals the route's; a non-admin on the admin route goes to `/dashboard` and an admin on the user route goes to `/admin` |
| Routing.Route | client/src/App.jsx:40-63 | each of the five open paths renders its own page, any unlisted path goes to `/`, and the dashboards render only for the matching role |
| Routing.RedirectsSettle | client/src/App.jsx:13-63 | once loaded, every path reaches a page within two redirects, and the dashboards land on the page the session's role belongs to |
| Routing.LoadingShowsSpinner | client/src/App.jsx:16-20 | while loading, both guarded routes show only the spinner |
| Dashboard.SortByCreated | client/src/pages/Dashboard.jsx:42 | the fetched list is newest first and a permutation of the reply |
| Dashboard.ApplyUpdate | client/src/pages/Dashboard.jsx:30 | a pushed pass replaces every entry with its id, and length, order and all other entries stay |
| Dashboard.HasPendingPass | client/src/pages/Dashboard.jsx:49 | some listed pass is pending, which disables the request button |
| Dashboard.Prepend | client/src/pages/Dashboard.jsx:55 | a created pass goes in front of the list |
| Dashboard.DropLocal | client/src/pages/Dashboard.jsx:67 | dropping removes every entry with the id and keeps every other entry |
| Dashboard.UpdateKeepsOrder | client/src/pages/Dashboard.jsx:30 | an update that keeps creation times keeps the list newest first |
| Dashboard.PrependKeepsOrder | client/src/pages/Dashboard.jsx:55 | prepending the newest pass keeps the list newest first |
| Dashboard.SortKeepsPending | client/src/pages/Dashboard.jsx:42-49 | sorting does not change whether a pending pass is listed |
| Dashboard.InMine | server/routes/passes.js:57-61 | the fetched list holds a pass exactly when the store holds it and it is the caller's |
| Dashboard.ListedPendingIsStored | client/src/pages/Dashboard.jsx:49 | a pending pass in the fetched list means the server holds one for the user |
| Dashboard.StoredPendingIsListed | client/src/pages/Dashboard.jsx:49 | a pending pass of the user on the server appears in the fetched list |
| Dashboard.PendingMirrorsServer | client/src/pages/Dashboard.jsx:49 | a fetched list shows a pending pass exactly when the server holds one for the user |
| Dashboard.ButtonMirrorsServer | client/src/pages/Dashboard.jsx:49-85 | the request button is disabled exactly when the server would refuse a new pass as an active one |
| Dashboard.UpdateCommutesWithOwner | client/src/pages/Dashboard.jsx:30 | updating by id and filtering by owner commute when the update keeps the owner |
| Dashboard.AssignmentIsUpdate | client/src/pages/Dashboard.jsx:30 | with unique ids, replacing one record is updating by its id |
| Dashboard.ApprovalUpdateInSync | client/src/pages/Dashboard.jsx:28-31 | applying the pushed approval to the server's earlier reply gives its later reply |
| Dashboard.DropInSync | client/src/pages/Dashboard.jsx:67 | filtering a dropped pass out of the server's earlier reply gives its later reply |
| Dashboard.CreateInSync | client/src/pages/Dashboard.jsx:55 | prepending the created pass gives the same passes a fresh fetch returns, which lists it last |
| Dashboard.UpdateInsert | client/src/pages/Dashboard.jsx:30-42 | an update that keeps creation times commutes with inserting into the sorted list |
| Dashboard.UpdateSort | client/src/pages/Dashboard.jsx:30-42 | updating the sorted list equals sorting the updated list, when the update keeps creation times |
| Dashboard.ApprovalPageInSync | client/src/pages/Dashboard.jsx:28-42 | the pushed approval applied to the sorted page gives the page a fresh fetch shows |
| Dashboard.DropPageInSync | client/src/pages/Dashboard.jsx:42-67 | filtering the dropped pass out of the sorted page gives the page a fresh fetch shows |
| Dashboard.CreatePageInSync | client/src/pages/Dashboard.jsx:42-55 | prepending the created pass to the sorted page gives the page a fresh fetch shows, when every stored pass is older |
| AdminHistory.CompletedAt | client/src/pages/Admin.jsx:61 | the sort key is the completion time, and 0 for a pass without one |
| AdminHistory.CompletedByLatest | client/src/pages/Admin.jsx:59-61 | the completed passes, each as often as stored, latest completion first |
| AdminHistory.Recent | client/src/pages/Admin.jsx:59-62 | at most five passes, all completed, latest first, drawn from the store |
| AdminHistory.RecentShowsAllWhenFew | client/src/pages/Admin.jsx:59-62 | with five or fewer completed passes, the panel shows every one of them, each as often as stored |
| AdminHistory.RecentIsTopFive | client/src/pages/Admin.jsx:59-62 | a completed pass left off the panel was completed no later than every pass shown, and the panel is then full |
| AdminHistory.RecentLength | client/src/pages/Admin.jsx:60-62 | the panel shows as many completed passes as exist, up to five |

## Left out

- Cryptography. JWT signing and bcrypt hashing are abstract: a token
  remembers its key and a digest its password. Forgery, token parsing and
  bcrypt's 72-byte limit are not modelled.
- QR images and camera scanning. The Admin.jsx scanner is a foreign library;
  a scan is just the token it yields.
- The JSON file store. Reading and writing are a sequence in the state, and a
  failing read or write is not modelled. It gives a 500 reply, except in
  `POST /passes/verify`, whose `try` block turns it into 400 `Invalid QR Code`.
- Socket.IO delivery. Notifications are appended to an outbox; rooms, joins
  and transport are not modelled.
- `req.io` is always attached by the server, so Approve always emits.
- Express middleware: `authMiddleware` and `adminMiddleware` are not part of
  this model. A request arrives with its verified caller, and admin-only
  routes are assumed to have passed the admin check.
- Clocks, randomness and ids.
  - Wall-clock time is a parameter.
  - The approval code's random draw is a parameter, limited to the range
    `Math.random` can give.
  - `PASS-${Date.now()}` and `Date.now().toString()` ids are parameters.
  - Unique pass ids are proved only under a freshness hypothesis.
- ISO date strings. Times are milliseconds throughout.
- Concurrency. Each handler runs to completion before the next starts. Two
  handlers in the source pause between reading and writing the store:
  - `POST /passes` reads the store, awaits `QRCode.toDataURL`
    (passes.js:45), then writes its earlier copy plus the new pass;
  - `POST /register` reads the users, awaits `bcrypt.hash` (auth.js:26), then
    writes its earlier copy plus the new account.

  A request served during either pause is lost when the paused handler
  writes. For example, an approval made during a create's pause leaves the
  pass pending again, with no code. The invariant, edge and round-trip
  lemmas hold only for the one-at-a-time order.
- Timer deadlines. A timer records when it is due, but nothing compares that
  time with a clock: an armed timer may fire at any point. This allows more
  orders than the source, where it fires five minutes after the scan.
- PassProtocol.OwnTokenLapsesBeforeExpiryCheck: holds for one clock reading
  per request. The source reads the clock for `createdAt` (passes.js:29), in
  `jwt.sign` (:44), in `jwt.verify` (:73) and for the expiry test (:87).
  `ExpiryGapAfterLastDecode` measures how far apart the last two readings
  must be for the expired branch to run.
- Passes.Create: signs the QR token at `createdAt`. A `jwt.sign` that reads
  the clock in a later second gives an `exp` one second later.
- Passes.Verify: one instant serves both the token check and the expiry
  test.
- Passes.Approve: `passId` is always a string and `code` is a string or
  absent. An absent `passId` in the source acts like an id that no pass and
  no code has: with no code either, the gate compares absent with absent and
  the reply is 404; with a code, it is 400.
- Request bodies of other JSON types. Fields are modelled as strings or
  absent. A number or object where the source expects a string (an `email`
  that `email.trim()` throws on, auth.js:19 and :55, giving 500) is not
  modelled, in any handler.
- Text.ToLower: maps only ASCII letters. JavaScript also maps other
  Unicode letters.
- Text.ToUpper: maps only ASCII letters. JavaScript also maps other
  Unicode letters.
- AdminHistory.CompletedAt: a completed pass without `completedAt` sorts as
  time 0. JavaScript would compare `NaN` there. The invariant
  `CompletionStamped` rules such a pass out for passes the model creates.
- Seqs.SortDesc: stability is built into the definition (equal keys keep their
  input order) but is not stated as a property.
- Routing.Route: paths are matched exactly. The router's case-insensitive and
  trailing-slash matching is not modelled.
- Admin.jsx fetches `${VITE_API_URL}/api/passes` without `getApiUrl`. That
  URL join is not modelled.
- The client-only six-character password check in Register.jsx is not
  enforced by the server, so it is not modelled.
- Rendering. Page markup, the landing, privacy, login, admin-login and navbar
  components, and styling are not modelled.
- `logout`, the local-storage persistence in AuthContext.jsx, and the copy
  button are not modelled.
- Expiry on read. No handler expires passes when listing them
  (`ReadsChangeNothing`), so there is nothing to model.

=== FILE: admin_history.dfy ===
/**
 * The admin console's "recent approvals" panel (`client/src/pages/Admin.jsx`):
 * from every stored pass, the completed ones, latest completion first, at most
 * five of them.
 */
module AdminHistory {
  import opened Wrappers
  import opened PassModel
  import Seqs

  const RecentCount: nat := 5

  /** The sort key: `new Date(p.completedAt)`, in milliseconds. */
  function CompletedAt(p: Pass): (t: int)
    ensures p.completedAt.Some? ==> t == p.completedAt.value
    ensures p.completedAt.None? ==> t == 0
  {
    p.completedAt.GetOr(0)
  }

  /** `p => p.status === 'completed'`. */
  function IsCompleted(p: Pass): bool {
    p.status == Completed
  }

  /** The completed passes, latest completion first. */
  function CompletedByLatest(passes: seq<Pass>): (r: seq<Pass>)
    ensures Seqs.SortedDesc(r, CompletedAt)
    ensures forall p :: multiset(r)[p] == if p.status == Completed then multiset(passes)[p] else 0
  {
    Seqs.FilterCounts(passes, IsCompleted);
    Seqs.SortDesc(Seqs.Filter(passes, IsCompleted), CompletedAt)
  }

  /** `filter(completed).sort(by completedAt, descending).slice(0, 5)`. */
  function Recent(passes: seq<Pass>): (r: seq<Pass>)
    ensures |r| <= RecentCount
    ensures forall i :: 0 <= i < |r| ==> r[i].status == Completed
    ensures Seqs.SortedDesc(r, CompletedAt)
    ensures multiset(r) <= multiset(passes)
  {
    var all := CompletedByLatest(passes);
    Seqs.TakeOfSorted(all, RecentCount, CompletedAt);
    var r := Seqs.Take(all, RecentCount);
    forall i | 0 <= i < |r| ensures r[i].status == Completed {
      assert r[i] == all[i];
      assert multiset(all)[all[i]] > 0;
    }
    forall p ensures multiset(r)[p] <= multiset(passes)[p] {
      assert multiset(r)[p] <= multiset(all)[p];
    }
    r
  }

  /** With five completed passes or fewer, the panel shows every one of them, each as often as stored. */
  lemma RecentShowsAllWhenFew(passes: seq<Pass>)
    requires |CompletedByLatest(passes)| <= RecentCount
    ensures forall p :: multiset(Recent(passes))[p] == if p.status == Completed then multiset(passes)[p] else 0
  {
    assert Recent(passes) == CompletedByLatest(passes);
  }

  /**
   * Nothing left out outranks what is shown: a completed pass that does not
   * appear (or appears fewer times than it is stored) was completed no later
   * than every pass on the panel, and then the panel is full.
   */
  lemma RecentIsTopFive(passes: seq<Pass>, p: Pass)
    requires p.status == Completed
    requires multiset(Recent(passes))[p] < multiset(passes)[p]
    ensures |Recent(passes)| == RecentCount
    ensures forall i :: 0 <= i < |Recent(passes)| ==> CompletedAt(Recent(passes)[i]) >= CompletedAt(p)
  {
    var all := CompletedByLatest(passes);
    assert Recent(passes) == Seqs.Take(all, RecentCount);
    assert multiset(all)[p] == multiset(passes)[p];
    Seqs.TakeKeepsTop(all, RecentCount, CompletedAt, p);
  }

  /** How many completed passes the panel shows: all of them, up to five. */
  lemma RecentLength(passes: seq<Pass>)
    ensures |Recent(passes)| == if |Seqs.Filter(passes, IsCompleted)| <= RecentCount
                                then |Seqs.Filter(passes, IsCompleted)| else RecentCount
  {
    var completed := Seqs.Filter(passes, IsCompleted);
    assert |CompletedByLatest(passes)| == |completed| by {
      assert multiset(CompletedByLatest(passes)) == multiset(completed);
      assert |multiset(CompletedByLatest(passes))| == |multiset(completed)|;
    }
  }
}

=== FILE: api_client.dfy ===
/**
 * The client's request helpers in `client/src/context/AuthContext.jsx`: joining
 * the configured API base with a path, and choosing the message a failed login
 * or registration shows.
 */
module ApiClient {
  import opened Wrappers
  import Text

  /** `import.meta.env.VITE_API_URL || ''`. */
  function ConfiguredBase(configured: Option<string>): (b: string)
    ensures configured.None? ==> b == []
    ensures configured.Some? ==> b == configured.value
  {
    configured.GetOr([])
  }

  /** The base with one trailing `/` removed, if it has one. */
  function CleanBase(base: string): (r: string)
    ensures Text.EndsWith(base, "/") ==> r + "/" == base
    ensures !Text.EndsWith(base, "/") ==> r == base
  {
    if Text.EndsWith(base, "/") then base[..|base| - 1] else base
  }

  /**
   * `getApiUrl(path)`: an empty path gives the cleaned base; any other path is
   * appended to it, with a `/` put in front when the path has none.
   */
  function GetApiUrl(configured: Option<string>, path: string): (r: string)
    ensures var b := ConfiguredBase(configured);
            && (path == [] ==> r == CleanBase(b))
            && (path != [] && path[0] == '/' ==> r == CleanBase(b) + path)
            && (path != [] && path[0] != '/' ==> r == CleanBase(b) + "/" + path)
  {
    var cleanBase := CleanBase(ConfiguredBase(configured));
    if path == [] then cleanBase
    else
      var cleanPath := if path[0] == '/' then path else "/" + path;
      cleanBase + cleanPath
  }

  /** Every URL starts with the cleaned base and ends with the path as given. */
  lemma GetApiUrlFrames(configured: Option<string>, path: string)
    ensures Text.StartsWith(GetApiUrl(configured, path), CleanBase(ConfiguredBase(configured)))
    ensures Text.EndsWith(GetApiUrl(configured, path), path)
  {
    var cleanBase := CleanBase(ConfiguredBase(configured));
    var url := GetApiUrl(configured, path);
    if path == [] {
      assert url[..|cleanBase|] == cleanBase;
      assert url[|url|..] == [];
    } else {
      var cleanPath := if path[0] == '/' then path else "/" + path;
      assert url == cleanBase + cleanPath;
      assert url[..|cleanBase|] == cleanBase;
      assert url[|url| - |path|..] == cleanPath[|cleanPath| - |path|..];
      assert cleanPath[|cleanPath| - |path|..] == path;
    }
  }

  /** A path without its leading slash joins to the same URL as with it. */
  lemma LeadingSlashOptional(configured: Option<string>, path: string)
    requires path != [] && path[0] != '/'
    ensures GetApiUrl(configured, path) == GetApiUrl(configured, "/" + path)
  {
    assert ("/" + path)[0] == '/';
  }

  /** One trailing slash on the base makes no difference; a second one does. */
  lemma TrailingSlashOptional(base: string, path: string)
    requires !Text.EndsWith(base, "/")
    ensures GetApiUrl(Some(base + "/"), path) == GetApiUrl(Some(base), path)
    ensures GetApiUrl(Some(base + "//"), []) == base + "/"
  {
    assert Text.EndsWith(base + "/", "/");
    assert (base + "/")[..|base|] == base;
    assert Text.EndsWith(base + "//", "/");
    assert (base + "//")[..|base| + 1] == base + "/";
  }

  /** Without a configured base the URL is the normalised path, a relative URL. */
  lemma UnsetBaseGivesPath(path: string)
    requires path != []
    ensures GetApiUrl(None, path) == GetApiUrl(Some([]), path)
    ensures GetApiUrl(None, path)[0] == '/'
    ensures GetApiUrl(None, path) == if path[0] == '/' then path else "/" + path
  {
    assert !Text.EndsWith([], "/");
  }

  const NetworkErrorMessage: string := "Server not responding (Network Error)"
  const LoginFailedMessage: string := "Login failed"
  const RegistrationFailedMessage: string := "Registration failed"

  /**
   * `err.response?.data?.message || (err.request ? network : fallback)`: the
   * server's message when there is a non-empty one, else the network message
   * when a request went out, else the fallback.
   */
  function FailureMessage(serverMessage: Option<string>, requestMade: bool, fallback: string): (m: string)
    ensures serverMessage.Some? && serverMessage.value != [] ==> m == serverMessage.value
    ensures (serverMessage.None? || serverMessage.value == []) && requestMade ==> m == NetworkErrorMessage
    ensures (serverMessage.None? || serverMessage.value == []) && !requestMade ==> m == fallback
  {
    if serverMessage.Some? && serverMessage.value != [] then serverMessage.value
    else if requestMade then NetworkErrorMessage
    else fallback
  }

  function LoginErrorMessage(serverMessage: Option<string>, requestMade: bool): (m: string)
    ensures m != []
    ensures m == NetworkErrorMessage || m == LoginFailedMessage || Some(m) == serverMessage
  {
    FailureMessage(serverMessage, requestMade, LoginFailedMessage)
  }

  function RegisterErrorMessage(serverMessage: Option<string>, requestMade: bool): (m: string)
    ensures m != []
    ensures m == NetworkErrorMessage || m == RegistrationFailedMessage || Some(m) == serverMessage
  {
    FailureMessage(serverMessage, requestMade, RegistrationFailedMessage)
  }

  /**
   * Login and registration differ only when neither the server nor the network
   * explains the failure; an empty server message counts as none.
   */
  lemma MessagesDifferOnlyInFallback(serverMessage: Option<string>, requestMade: bool)
    ensures LoginErrorMessage(serverMessage, requestMade) == RegisterErrorMessage(serverMessage, requestMade)
            <==> (serverMessage.Some? && serverMessage.value != []) || requestMade
    ensures LoginErrorMessage(Some([]), requestMade) == LoginErrorMessage(None, requestMade)
  {
  }
}

=== FILE: auth.dfy ===
/**
 * Account registration and sign-in (`server/routes/auth.js`), as pure functions
 * over the user list and the two environment settings `ADMIN_EMAIL` and
 * `ADMIN_PASSWORD`. Password hashing is abstract: a digest remembers the
 * password it was made from, and comparison succeeds exactly for that password.
 */
module Auth {
  import opened Wrappers
  import opened Text
  import Seqs
  import Tokens

  /** A bcrypt digest: the salt is whatever the hashing run drew. */
  datatype Digest = Bcrypt(source: string, salt: nat)

  /** `bcrypt.hash(password, 10)`. */
  function Hash(password: string, salt: nat): Digest {
    Bcrypt(password, salt)
  }

  /** `bcrypt.compare(password, digest)`. */
  predicate Matches(password: string, d: Digest) {
    d.source == password
  }

  /** A stored account. */
  datatype User = User(id: string, name: string, email: string, password: Digest, role: string, createdAt: int)

  /** `ADMIN_EMAIL` and `ADMIN_PASSWORD`; `None` when unset. */
  datatype Env = Env(adminEmail: Option<string>, adminPassword: Option<string>)

  /** The `user` object of a successful sign-in: it has no field for the password digest. */
  datatype Profile = Profile(id: string, name: string, email: string, role: string)

  datatype RegisterReply =
    | Registered                                  // 201
    | RegisterRefused(status: int, message: string)

  datatype LoginReply =
    | LoggedIn(token: Tokens.Token, user: Profile)  // 200
    | LoginRefused(status: int, message: string)

  /** Who the credentials authenticate: a stored account, the environment's override admin, or nobody. */
  datatype Identity = Account(user: User) | SystemAdmin | Nobody

  const UserRole: string := "user"
  const AdminRole: string := "admin"
  const SystemAdminId: string := "system-admin"
  const SystemAdminName: string := "System Admin"
  const SessionLifetimeSec: nat := 24 * 60 * 60

  const AllFieldsRequired: string := "All fields are required"
  const EmailTaken: string := "Email already registered. Please use another one or Sign In."
  const LoginFieldsRequired: string := "Email, password and role selection are required"
  const InvalidCredentials: string := "Invalid credentials"

  /** A request field is truthy: present and not the empty string. */
  predicate Present(field: Option<string>) {
    field.Some? && field.value != []
  }

  /** `email.trim().toLowerCase()`. */
  function NormalizeEmail(email: string): (r: string)
    ensures |r| <= |email|
    ensures r == [] <==> AllSpace(email)
    ensures forall i :: 0 <= i < |r| ==> !IsUpper(r[i])
  {
    ToLower(Trim(email))
  }

  /** The first stored account whose lower-cased email equals `normalized`. */
  function FindByEmail(users: seq<User>, normalized: string): (r: Option<nat>)
    ensures r.Some? ==> r.value < |users| && ToLower(users[r.value].email) == normalized
    ensures r.Some? ==> forall j :: 0 <= j < r.value ==> ToLower(users[j].email) != normalized
    ensures r.None? <==> forall j :: 0 <= j < |users| ==> ToLower(users[j].email) != normalized
  {
    Seqs.FindIndex(users, (u: User) => ToLower(u.email) == normalized)
  }

  /** `(process.env.ADMIN_EMAIL || '').trim().toLowerCase()`. */
  function AdminEmail(env: Env): (r: string)
    ensures env.adminEmail.None? ==> r == []
    ensures env.adminEmail.Some? ==> r == NormalizeEmail(env.adminEmail.value)
  {
    NormalizeEmail(env.adminEmail.GetOr([]))
  }

  /** `(process.env.ADMIN_PASSWORD || '').trim()`. */
  function AdminPassword(env: Env): (r: string)
    ensures r == [] <==> env.adminPassword.None? || AllSpace(env.adminPassword.value)
    ensures r != [] ==> !IsSpace(r[0]) && !IsSpace(r[|r| - 1])
  {
    Trim(env.adminPassword.GetOr([]))
  }

  /** No two stored accounts share an email once both are lower-cased. */
  ghost predicate DistinctEmails(users: seq<User>) {
    forall i, j :: 0 <= i < j < |users| ==> ToLower(users[i].email) != ToLower(users[j].email)
  }

  /**
   * POST /register. Missing fields are refused; so is an email that some stored
   * account already has, compared case-insensitively; otherwise one account is
   * appended with the trimmed name, the normalised email and the role `user`,
   * whatever the request asked for.
   */
  function Register(users: seq<User>, name: Option<string>, email: Option<string>, password: Option<string>,
                    id: string, now: int, salt: nat): (out: (RegisterReply, seq<User>))
    ensures !(Present(name) && Present(email) && Present(password)) ==>
              out == (RegisterRefused(400, AllFieldsRequired), users)
    ensures Present(name) && Present(email) && Present(password) &&
            FindByEmail(users, NormalizeEmail(email.value)).Some? ==>
              out == (RegisterRefused(400, EmailTaken), users)
    ensures out.0.Registered? <==>
              Present(name) && Present(email) && Present(password) &&
              forall j :: 0 <= j < |users| ==> ToLower(users[j].email) != NormalizeEmail(email.value)
    ensures out.0.Registered? ==>
              && |out.1| == |users| + 1
              && out.1[..|users|] == users
              && out.1[|users|] == User(id, Trim(name.value), NormalizeEmail(email.value),
                                        Hash(password.value, salt), UserRole, now)
  {
    if !(Present(name) && Present(email) && Present(password)) then
      (RegisterRefused(400, AllFieldsRequired), users)
    else
      var normalized := NormalizeEmail(email.value);
      if FindByEmail(users, normalized).Some? then
        (RegisterRefused(400, EmailTaken), users)
      else
        var account := User(id, Trim(name.value), normalized, Hash(password.value, salt), UserRole, now);
        (Registered, users + [account])
  }

  /**
   * The account's true role: a stored account's role wins; failing that, the
   * configured admin email resolves to `admin`; otherwise there is none.
   */
  function RegisteredRole(users: seq<User>, env: Env, normalized: string): (r: Option<string>)
    ensures FindByEmail(users, normalized).Some? ==> r == Some(users[FindByEmail(users, normalized).value].role)
    ensures FindByEmail(users, normalized).None? && normalized == AdminEmail(env) ==> r == Some(AdminRole)
    ensures FindByEmail(users, normalized).None? && normalized != AdminEmail(env) ==> r == None
  {
    match FindByEmail(users, normalized)
    case Some(i) => Some(users[i].role)
    case None => if normalized == AdminEmail(env) then Some(AdminRole) else None
  }

  /**
   * The stored password is tried first; only if it fails (or there is no stored
   * account) does the environment's admin email and exact admin password yield
   * the synthetic admin, even when a stored account has that email.
   */
  function Authenticate(users: seq<User>, env: Env, normalized: string, password: string): (who: Identity)
    ensures who.Account? <==>
              FindByEmail(users, normalized).Some? &&
              Matches(password, users[FindByEmail(users, normalized).value].password)
    ensures who.Account? ==> who.user == users[FindByEmail(users, normalized).value]
    ensures who.SystemAdmin? <==>
              !who.Account? && normalized == AdminEmail(env) && password == AdminPassword(env)
  {
    var db := FindByEmail(users, normalized);
    if db.Some? && Matches(password, users[db.value].password) then Account(users[db.value])
    else if normalized == AdminEmail(env) && password == AdminPassword(env) then SystemAdmin
    else Nobody
  }

  /** What the response's `user` field carries for an identity: never the digest. */
  function ProfileOf(who: Identity, normalized: string): (p: Profile)
    requires !who.Nobody?
    ensures who.Account? ==> p == Profile(who.user.id, who.user.name, who.user.email, who.user.role)
    ensures who.SystemAdmin? ==>
              p.id == SystemAdminId && p.name == SystemAdminName && p.role == AdminRole && p.email == normalized
  {
    match who
    case Account(u) => Profile(u.id, u.name, u.email, u.role)
    case SystemAdmin => Profile(SystemAdminId, SystemAdminName, normalized, AdminRole)
  }

  const MismatchHead: string := "This account is registered as "
  const MismatchTail: string := " role to sign in."

  /** The 403 message: it names the stored role as stored, then in upper case. */
  function RoleMismatchMessage(registered: string): (m: string)
    ensures StartsWith(m, MismatchHead + registered)
    ensures EndsWith(m, ToUpper(registered) + MismatchTail)
  {
    var head := MismatchHead + registered;
    var tail := ToUpper(registered) + MismatchTail;
    var m := head + ". Please select the " + tail;
    assert m[..|head|] == head;
    assert m[|m| - |tail|..] == tail;
    m
  }

  /**
   * POST /login. Refusals come in a fixed order: missing fields (400), no
   * account role (400), a role other than the requested one, compared
   * case-insensitively (403, before any password is looked at), and finally
   * credentials that authenticate nobody (400).
   */
  function Login(users: seq<User>, env: Env, email: Option<string>, password: Option<string>,
                 role: Option<string>, now: int, secret: string): (r: LoginReply)
    ensures !(Present(email) && Present(password) && Present(role)) ==>
              r == LoginRefused(400, LoginFieldsRequired)
    ensures Present(email) && Present(password) && Present(role) ==>
              var normalized := NormalizeEmail(email.value);
              var registered := RegisteredRole(users, env, normalized);
              && (registered.None? || registered.value == [] ==> r == LoginRefused(400, InvalidCredentials))
              && (registered.Some? && registered.value != [] && ToLower(registered.value) != ToLower(role.value) ==>
                    r == LoginRefused(403, RoleMismatchMessage(registered.value)))
              && (registered.Some? && registered.value != [] && ToLower(registered.value) == ToLower(role.value) &&
                  Authenticate(users, env, normalized, password.value).Nobody? ==>
                    r == LoginRefused(400, InvalidCredentials))
              && (r.LoggedIn? <==>
                    registered.Some? && registered.value != [] && ToLower(registered.value) == ToLower(role.value) &&
                    !Authenticate(users, env, normalized, password.value).Nobody?)
              && (r.LoggedIn? ==>
                    var who := Authenticate(users, env, normalized, password.value);
                    && r.user == ProfileOf(who, normalized)
                    && r.token == Tokens.Sign(Tokens.SessionClaims(r.user.id, r.user.role, r.user.name),
                                              now, SessionLifetimeSec, secret))
    ensures r.LoginRefused? ==> r.status in {400, 403}
  {
    if !(Present(email) && Present(password) && Present(role)) then
      LoginRefused(400, LoginFieldsRequired)
    else
      var normalized := NormalizeEmail(email.value);
      var registered := RegisteredRole(users, env, normalized);
      if registered.None? || registered.value == [] then
        LoginRefused(400, InvalidCredentials)
      else if ToLower(registered.value) != ToLower(role.value) then
        LoginRefused(403, RoleMismatchMessage(registered.value))
      else
        var who := Authenticate(users, env, normalized, password.value);
        if who.Nobody? then
          LoginRefused(400, InvalidCredentials)
        else
          var profile := ProfileOf(who, normalized);
          var token := Tokens.Sign(Tokens.SessionClaims(profile.id, profile.role, profile.name),
                                   now, SessionLifetimeSec, secret);
          LoggedIn(token, profile)
  }

  // ---------------------------------------------------------------------------
  // Properties of registration and sign-in
  // ---------------------------------------------------------------------------

  lemma UserRoleIsLower()
    ensures ToLower(UserRole) == UserRole && ToLower(AdminRole) == AdminRole
  {
    assert ToLower(UserRole)[0] == 'u';
  }

  /** Sign-in succeeds exactly when the role resolves, matches, and the credentials authenticate someone. */
  lemma LoginSucceeds(users: seq<User>, env: Env, email: string, password: string, role: string,
                      now: int, secret: string)
    requires email != [] && password != [] && role != []
    requires var registered := RegisteredRole(users, env, NormalizeEmail(email));
             registered.Some? && registered.value != [] && ToLower(registered.value) == ToLower(role)
    requires !Authenticate(users, env, NormalizeEmail(email), password).Nobody?
    ensures var r := Login(users, env, Some(email), Some(password), Some(role), now, secret);
            r.LoggedIn? && r.user == ProfileOf(Authenticate(users, env, NormalizeEmail(email), password), NormalizeEmail(email))
  {
  }

  /** A normalised email is its own lower-cased form. */
  lemma NormalizedIsLower(email: string)
    ensures ToLower(NormalizeEmail(email)) == NormalizeEmail(email)
  {
    ToLowerIdempotent(Trim(email));
  }

  /** Registration keeps the stored emails pairwise distinct (case-insensitively). */
  lemma RegisterKeepsEmailsDistinct(users: seq<User>, name: Option<string>, email: Option<string>,
                                    password: Option<string>, id: string, now: int, salt: nat)
    requires DistinctEmails(users)
    ensures DistinctEmails(Register(users, name, email, password, id, now, salt).1)
  {
    var out := Register(users, name, email, password, id, now, salt);
    if out.0.Registered? {
      NormalizedIsLower(email.value);
      var us := out.1;
      forall i, j | 0 <= i < j < |us| ensures ToLower(us[i].email) != ToLower(us[j].email) {
        if j == |users| {
          assert us[i] == users[i];
        } else {
          assert us[i] == users[i] && us[j] == users[j];
        }
      }
    }
  }

  /**
   * The presence check looks at the raw email, the stored one is trimmed: an
   * all-white-space email passes the check and is stored as the empty string.
   */
  lemma RegisterAcceptsBlankEmail(users: seq<User>, name: string, blank: string, password: string,
                                  id: string, now: int, salt: nat)
    requires name != [] && password != []
    requires blank != [] && AllSpace(blank)
    requires FindByEmail(users, []) == None
    ensures var out := Register(users, Some(name), Some(blank), Some(password), id, now, salt);
            out.0.Registered? && out.1[|users|].email == []
  {
    assert Trim(blank) == [];
    assert NormalizeEmail(blank) == [];
  }

  /** Registration never creates an administrator: every account it adds has role `user`. */
  lemma RegisterNeverGrantsAdmin(users: seq<User>, name: Option<string>, email: Option<string>,
                                 password: Option<string>, id: string, now: int, salt: nat)
    ensures var us := Register(users, name, email, password, id, now, salt).1;
            forall j :: |users| <= j < |us| ==> us[j].role == UserRole
  {
  }

  /**
   * Round trip: right after a successful registration, signing in with the same
   * email, the same password and role `user` (in any letter case) succeeds and
   * returns the new account's profile.
   */
  lemma RegisterThenLogin(users: seq<User>, env: Env, name: string, email: string, password: string,
                          id: string, now: int, salt: nat, role: string, later: int, secret: string)
    requires Register(users, Some(name), Some(email), Some(password), id, now, salt).0.Registered?
    requires ToLower(role) == UserRole
    ensures var us := Register(users, Some(name), Some(email), Some(password), id, now, salt).1;
            var r := Login(us, env, Some(email), Some(password), Some(role), later, secret);
            r.LoggedIn? && r.user == Profile(id, Trim(name), NormalizeEmail(email), UserRole)
  {
    var us := Register(users, Some(name), Some(email), Some(password), id, now, salt).1;
    var normalized := NormalizeEmail(email);
    var account := us[|users|];
    assert us == users + [account];
    NormalizedIsLower(email);
    AppendedAccountFound(users, account, normalized);
    UserRoleIsLower();
    assert role != [] by { assert |ToLower(role)| == |role|; }
    assert Authenticate(us, env, normalized, password) == Account(account);
    LoginSucceeds(us, env, email, password, role, later, secret);
  }

  /** An account appended under an email no stored account has is the one found under that email. */
  lemma AppendedAccountFound(users: seq<User>, account: User, normalized: string)
    requires ToLower(account.email) == normalized
    requires forall j :: 0 <= j < |users| ==> ToLower(users[j].email) != normalized
    ensures FindByEmail(users + [account], normalized) == Some(|users|)
  {
    var us := users + [account];
    assert us[|users|] == account;
    assert forall j :: 0 <= j < |users| ==> ToLower(us[j].email) != normalized by {
      forall j | 0 <= j < |users| ensures ToLower(us[j].email) != normalized {
        assert us[j] == users[j];
      }
    }
    var r := FindByEmail(us, normalized);
    assert r.Some?;
    assert r.value == |users|;
  }

  /** A role mismatch is reported before any password is checked: the reply does not depend on the password. */
  lemma RoleCheckPrecedesPassword(users: seq<User>, env: Env, email: string, pw1: string, pw2: string,
                                  role: string, now: int, secret: string)
    requires email != [] && pw1 != [] && pw2 != [] && role != []
    requires var registered := RegisteredRole(users, env, NormalizeEmail(email));
             registered.Some? && registered.value != [] && ToLower(registered.value) != ToLower(role)
    ensures Login(users, env, Some(email), Some(pw1), Some(role), now, secret)
         == Login(users, env, Some(email), Some(pw2), Some(role), now, secret)
    ensures Login(users, env, Some(email), Some(pw1), Some(role), now, secret).LoginRefused?
  {
  }

  /**
   * The environment override outranks nothing but a failed password: a stored
   * `user` account whose email is the admin email, signed in as `user` with the
   * admin password instead of its own, comes back as the synthetic admin.
   */
  lemma EnvOverrideShadowsStoredUser(users: seq<User>, env: Env, email: string, role: string,
                                     now: int, secret: string)
    requires email != [] && AdminPassword(env) != []
    requires NormalizeEmail(email) == AdminEmail(env)
    requires var db := FindByEmail(users, NormalizeEmail(email));
             db.Some? && users[db.value].role == UserRole &&
             !Matches(AdminPassword(env), users[db.value].password)
    requires ToLower(role) == UserRole
    ensures var r := Login(users, env, Some(email), Some(AdminPassword(env)), Some(role), now, secret);
            r.LoggedIn? && r.user.id == SystemAdminId && r.user.role == AdminRole
  {
    var normalized := NormalizeEmail(email);
    UserRoleIsLower();
    assert role != [] by { assert |ToLower(role)| == |role|; }
    assert RegisteredRole(users, env, normalized) == Some(UserRole);
    assert Authenticate(users, env, normalized, AdminPassword(env)) == SystemAdmin;
    LoginSucceeds(users, env, email, AdminPassword(env), role, now, secret);
  }

  /** An all-white-space email normalises to the empty string, as an unset `ADMIN_EMAIL` does. */
  lemma BlankNormalizesToUnsetAdminEmail(blank: string, env: Env)
    requires AllSpace(blank) && env.adminEmail.None?
    ensures NormalizeEmail(blank) == [] == AdminEmail(env)
  {
    assert Trim([]) == [] by { assert AllSpace([]); }
  }

  /** Without a stored account, the admin email and the exact admin password authenticate the synthetic admin. */
  lemma OverrideAuthenticatesWithoutAccount(users: seq<User>, env: Env, normalized: string, password: string)
    requires FindByEmail(users, normalized) == None
    requires normalized == AdminEmail(env) && password == AdminPassword(env)
    ensures Authenticate(users, env, normalized, password) == SystemAdmin
  {
  }

  /** Without a stored account, the override admin signs in under role `admin` as the synthetic admin. */
  lemma OverrideSignsInAsAdmin(users: seq<User>, env: Env, email: string, password: string,
                               now: int, secret: string)
    requires email != [] && password != []
    requires FindByEmail(users, NormalizeEmail(email)) == None
    requires NormalizeEmail(email) == AdminEmail(env)
    requires Authenticate(users, env, NormalizeEmail(email), password) == SystemAdmin
    ensures var r := Login(users, env, Some(email), Some(password), Some(AdminRole), now, secret);
            r.LoggedIn? && r.user.id == SystemAdminId && r.user.role == AdminRole
  {
    UserRoleIsLower();
    LoginSucceeds(users, env, email, password, AdminRole, now, secret);
  }

  /**
   * With `ADMIN_EMAIL` unset, the admin email is the empty string, which an
   * all-white-space email also normalises to: such an email, with the admin
   * password and role `admin`, signs in as the synthetic admin whenever no
   * stored account is found under the empty email.
   */
  lemma BlankEmailMatchesUnsetAdminEmail(users: seq<User>, env: Env, password: string, blank: string,
                                         now: int, secret: string)
    requires env.adminEmail.None?
    requires blank != [] && AllSpace(blank)
    requires password != [] && password == AdminPassword(env)
    requires FindByEmail(users, []) == None
    ensures var r := Login(users, env, Some(blank), Some(password), Some(AdminRole), now, secret);
            r.LoggedIn? && r.user.id == SystemAdminId
  {
    BlankNormalizesToUnsetAdminEmail(blank, env);
    OverrideAuthenticatesWithoutAccount(users, env, [], password);
    OverrideSignsInAsAdmin(users, env, blank, password, now, secret);
  }
}

=== FILE: dashboard.dfy ===
/**
 * The pass list a user's dashboard holds (`client/src/pages/Dashboard.jsx`)
 * and the reducers that keep it: the fetch, the pushed `passUpdate`, a
 * successful create and a successful drop. The lemmas show that, when pass
 * ids are unique, each reducer turns the server's earlier reply into its
 * later one, and the sorted page into the page a fresh fetch of
 * `GET /passes/mine` would show.
 */
module Dashboard {
  import opened Wrappers
  import opened PassModel
  import Passes
  import PassProtocol
  import Seqs

  /** The sort key: `new Date(p.createdAt)`, in milliseconds. */
  function CreatedAt(p: Pass): int {
    p.createdAt
  }

  /** `res.data.sort((a, b) => new Date(b.createdAt) - new Date(a.createdAt))`. */
  function SortByCreated(list: seq<Pass>): (r: seq<Pass>)
    ensures Seqs.SortedDesc(r, CreatedAt)
    ensures multiset(r) == multiset(list)
  {
    Seqs.SortDesc(list, CreatedAt)
  }

  /** `prev.map(p => p.id === updated.id ? updated : p)`. */
  function ApplyUpdate(list: seq<Pass>, updated: Pass): (r: seq<Pass>)
    ensures |r| == |list|
    ensures forall i :: 0 <= i < |r| ==> r[i] == (if list[i].id == updated.id then updated else list[i])
  {
    if list == [] then []
    else [if list[0].id == updated.id then updated else list[0]] + ApplyUpdate(list[1..], updated)
  }

  /** `passes.some(p => p.status === 'pending')`; the request button is disabled exactly then. */
  predicate HasPendingPass(list: seq<Pass>) {
    exists i :: 0 <= i < |list| && list[i].status == Pending
  }

  /** `[created, ...passes]`. */
  function Prepend(created: Pass, list: seq<Pass>): (r: seq<Pass>)
    ensures |r| == |list| + 1 && r[0] == created && r[1..] == list
  {
    [created] + list
  }

  /** `p => p.id !== id`. */
  function NotId(id: PassId): Pass -> bool {
    (p: Pass) => p.id != id
  }

  /** `prev.filter(p => p.id !== id)`: every entry with that id goes, the rest stay in order. */
  function DropLocal(list: seq<Pass>, id: PassId): (r: seq<Pass>)
    ensures forall i :: 0 <= i < |r| ==> r[i].id != id
    ensures forall p :: multiset(r)[p] == if p.id == id then 0 else multiset(list)[p]
  {
    Seqs.FilterCounts(list, NotId(id));
    Seqs.Filter(list, NotId(id))
  }

  // ---------------------------------------------------------------------------
  // Local order
  // ---------------------------------------------------------------------------

  /** An update that keeps the creation time of the entries it replaces keeps the list sorted. */
  lemma UpdateKeepsOrder(list: seq<Pass>, updated: Pass)
    requires Seqs.SortedDesc(list, CreatedAt)
    requires forall i :: 0 <= i < |list| && list[i].id == updated.id ==> list[i].createdAt == updated.createdAt
    ensures Seqs.SortedDesc(ApplyUpdate(list, updated), CreatedAt)
  {
    var r := ApplyUpdate(list, updated);
    forall i, j | 0 <= i < j < |r| ensures CreatedAt(r[i]) >= CreatedAt(r[j]) {
      assert CreatedAt(r[i]) == CreatedAt(list[i]) && CreatedAt(r[j]) == CreatedAt(list[j]);
    }
  }

  /** Prepending a pass created no earlier than every listed one keeps the list sorted. */
  lemma PrependKeepsOrder(created: Pass, list: seq<Pass>)
    requires Seqs.SortedDesc(list, CreatedAt)
    requires forall i :: 0 <= i < |list| ==> list[i].createdAt <= created.createdAt
    ensures Seqs.SortedDesc(Prepend(created, list), CreatedAt)
  {
    var r := Prepend(created, list);
    forall i, j | 0 <= i < j < |r| ensures CreatedAt(r[i]) >= CreatedAt(r[j]) {
      assert r[j] == list[j - 1];
      if i > 0 {
        assert r[i] == list[i - 1];
      }
    }
  }

  /** Sorting changes nothing about whether a pending pass is listed. */
  lemma SortKeepsPending(list: seq<Pass>)
    ensures HasPendingPass(SortByCreated(list)) <==> HasPendingPass(list)
  {
    var r := SortByCreated(list);
    if HasPendingPass(list) {
      var i :| 0 <= i < |list| && list[i].status == Pending;
      assert list[i] in multiset(r);
      var k :| 0 <= k < |r| && r[k] == list[i];
    }
    if HasPendingPass(r) {
      var i :| 0 <= i < |r| && r[i].status == Pending;
      assert r[i] in multiset(list);
      var k :| 0 <= k < |list| && list[k] == r[i];
    }
  }

  // ---------------------------------------------------------------------------
  // Agreement with the server
  // ---------------------------------------------------------------------------

  /** The fetched list holds a pass exactly when the store holds it and it belongs to the caller. */
  lemma InMine(s: State, caller: Caller, x: Pass)
    ensures x in Passes.ListMine(s, caller) <==> x in s.passes && x.userId == caller.id
  {
    var mine := Passes.ListMine(s, caller);
    assert multiset(mine)[x] == if x.userId == caller.id then multiset(s.passes)[x] else 0;
    assert x in mine <==> x in multiset(mine);
    assert x in s.passes <==> x in multiset(s.passes);
  }

  /** On a fetched list, some pass shows as pending exactly when the server holds a pending pass of the user. */
  lemma PendingMirrorsServer(s: State, caller: Caller)
    ensures HasPendingPass(SortByCreated(Passes.ListMine(s, caller))) <==> Passes.HasPending(s.passes, caller.id)
  {
    var mine := Passes.ListMine(s, caller);
    SortKeepsPending(mine);
    if HasPendingPass(mine) {
      ListedPendingIsStored(s, caller);
    }
    if Passes.HasPending(s.passes, caller.id) {
      StoredPendingIsListed(s, caller);
    }
  }

  lemma ListedPendingIsStored(s: State, caller: Caller)
    requires HasPendingPass(Passes.ListMine(s, caller))
    ensures Passes.HasPending(s.passes, caller.id)
  {
    var mine := Passes.ListMine(s, caller);
    var i :| 0 <= i < |mine| && mine[i].status == Pending;
    var x := mine[i];
    InMine(s, caller, x);
    var k :| 0 <= k < |s.passes| && s.passes[k] == x;
  }

  lemma StoredPendingIsListed(s: State, caller: Caller)
    requires Passes.HasPending(s.passes, caller.id)
    ensures HasPendingPass(Passes.ListMine(s, caller))
  {
    var mine := Passes.ListMine(s, caller);
    var k :| 0 <= k < |s.passes| && s.passes[k].userId == caller.id && s.passes[k].status == Pending;
    var x := s.passes[k];
    InMine(s, caller, x);
    var i :| 0 <= i < |mine| && mine[i] == x;
  }

  /**
   * The button reflects the server's own check: on a fetched list it is
   * disabled exactly when a request for a valid destination would be refused
   * as an active pass.
   */
  lemma ButtonMirrorsServer(s: State, caller: Caller, purpose: string, kind: Option<string>,
                            id: PassId, now: int, secret: string)
    requires purpose in ValidPurposes
    ensures HasPendingPass(SortByCreated(Passes.ListMine(s, caller))) <==>
              Passes.Create(s, caller, Some(purpose), kind, id, now, secret).reply
                == Passes.Refused(400, Passes.ActivePassExists)
  {
    PendingMirrorsServer(s, caller);
    var out := Passes.Create(s, caller, Some(purpose), kind, id, now, secret);
    assert Passes.ValidPurpose(Some(purpose));
    assert out.reply.Created? <==> !Passes.HasPending(s.passes, caller.id);
  }

  /** Filtering by owner and updating by id commute when every record with the id has the update's owner. */
  lemma {:induction false} UpdateCommutesWithOwner(xs: seq<Pass>, updated: Pass, uid: UserId)
    requires forall j :: 0 <= j < |xs| && xs[j].id == updated.id ==> xs[j].userId == updated.userId
    ensures Seqs.Filter(ApplyUpdate(xs, updated), Passes.OwnedBy(uid))
            == ApplyUpdate(Seqs.Filter(xs, Passes.OwnedBy(uid)), updated)
    decreases |xs|
  {
    if xs != [] {
      var keep := Passes.OwnedBy(uid);
      var x := xs[0];
      var x' := if x.id == updated.id then updated else x;
      var rest := ApplyUpdate(xs[1..], updated);
      UpdateCommutesWithOwner(xs[1..], updated, uid);
      assert ApplyUpdate(xs, updated) == [x'] + rest;
      assert ([x'] + rest)[1..] == rest;
      assert keep(x') == keep(x);
      var f := Seqs.Filter(xs[1..], keep);
      if keep(x) {
        assert Seqs.Filter(xs, keep) == [x] + f;
        assert ([x] + f)[1..] == f;
      }
    }
  }

  /** With unique ids, replacing the record at `i` is updating by its id. */
  lemma AssignmentIsUpdate(xs: seq<Pass>, i: nat, updated: Pass)
    requires PassProtocol.UniqueIds(xs)
    requires i < |xs| && updated.id == xs[i].id
    ensures xs[i := updated] == ApplyUpdate(xs, updated)
  {
    var r := ApplyUpdate(xs, updated);
    forall j | 0 <= j < |xs| ensures xs[i := updated][j] == r[j] {
      if j != i {
        assert xs[j].id != xs[i].id;
      }
    }
  }

  /**
   * The `passUpdate` an approval pushes, applied to the owner's list, gives the
   * list a fresh fetch would: the same reducer leaves every other user's list
   * as a fresh fetch of theirs.
   */
  lemma ApprovalUpdateInSync(s: State, passId: PassId, entered: Option<string>, now: int, viewer: Caller)
    requires PassProtocol.UniqueIds(s.passes)
    requires Passes.Approve(s, passId, entered, now).reply.Approved?
    ensures var out := Passes.Approve(s, passId, entered, now);
            Passes.ListMine(out.next, viewer) == ApplyUpdate(Passes.ListMine(s, viewer), out.reply.pass)
  {
    var out := Passes.Approve(s, passId, entered, now);
    var i := Passes.FindById(s.passes, passId).value;
    AssignmentIsUpdate(s.passes, i, out.reply.pass);
    forall j | 0 <= j < |s.passes| && s.passes[j].id == out.reply.pass.id
      ensures s.passes[j].userId == out.reply.pass.userId
    {
      assert j == i;
    }
    UpdateCommutesWithOwner(s.passes, out.reply.pass, viewer.id);
  }

  /** After a successful drop, the filtered local list is what a fresh fetch returns. */
  lemma DropInSync(s: State, caller: Caller, passId: PassId, viewer: Caller)
    requires PassProtocol.UniqueIds(s.passes)
    requires Passes.Drop(s, caller, passId).reply.Dropped?
    ensures Passes.ListMine(Passes.Drop(s, caller, passId).next, viewer)
            == DropLocal(Passes.ListMine(s, viewer), passId)
  {
    var next := Passes.Drop(s, caller, passId).next;
    var i := Passes.FindOwned(s.passes, passId, caller.id).value;
    assert next.passes == s.passes[..i] + s.passes[i + 1..] by {
      assert next.passes == next.passes[..i] + next.passes[i..];
    }
    forall j | 0 <= j < |s.passes| && j != i ensures NotId(passId)(s.passes[j]) {
      assert s.passes[j].id != s.passes[i].id by {
        if j < i {} else {}
      }
    }
    Seqs.RemoveIsFilter(s.passes, i, NotId(passId));
    Seqs.FilterCommutes(s.passes, NotId(passId), Passes.OwnedBy(viewer.id));
  }

  /**
   * After a successful create, the prepended local list holds what a fresh
   * fetch returns, which has the new pass last; sorted, a pass created no
   * earlier than the others comes first in both.
   */
  lemma CreateInSync(s: State, caller: Caller, purpose: Option<string>, kind: Option<string>,
                     id: PassId, now: int, secret: string)
    requires Passes.Create(s, caller, purpose, kind, id, now, secret).reply.Created?
    ensures var out := Passes.Create(s, caller, purpose, kind, id, now, secret);
            && Passes.ListMine(out.next, caller) == Passes.ListMine(s, caller) + [out.reply.pass]
            && multiset(Prepend(out.reply.pass, Passes.ListMine(s, caller))) == multiset(Passes.ListMine(out.next, caller))
  {
    var out := Passes.Create(s, caller, purpose, kind, id, now, secret);
    var p := out.reply.pass;
    Seqs.FilterConcat(s.passes, [p], Passes.OwnedBy(caller.id));
    assert [p][1..] == [];
    assert Seqs.Filter([p], Passes.OwnedBy(caller.id)) == [p];
  }

  // ---------------------------------------------------------------------------
  // Agreement of the sorted page
  // ---------------------------------------------------------------------------

  /** Every listed pass with the update's id has the update's creation time. */
  ghost predicate KeepsCreated(list: seq<Pass>, updated: Pass) {
    forall p :: p in list && p.id == updated.id ==> p.createdAt == updated.createdAt
  }

  lemma UpdateCons(x: Pass, list: seq<Pass>, updated: Pass)
    ensures ApplyUpdate([x] + list, updated) == [if x.id == updated.id then updated else x] + ApplyUpdate(list, updated)
  {
    assert ([x] + list)[1..] == list;
  }

  /** `prev.map`'s replacement of one entry. */
  function Swap(p: Pass, updated: Pass): Pass {
    if p.id == updated.id then updated else p
  }

  /** Inserting in front of the sorted page, then updating, is inserting the updated entry in front. */
  lemma UpdateInsertFront(x: Pass, list: seq<Pass>, updated: Pass)
    requires Seqs.SortedDesc(list, CreatedAt)
    requires KeepsCreated(list, updated)
    requires CreatedAt(Swap(x, updated)) == CreatedAt(x)
    requires list == [] || CreatedAt(x) >= CreatedAt(list[0])
    ensures (UpdateKeepsOrder(list, updated);
             ApplyUpdate(Seqs.Insert(x, list, CreatedAt), updated)
             == Seqs.Insert(Swap(x, updated), ApplyUpdate(list, updated), CreatedAt))
  {
    UpdateKeepsOrder(list, updated);
    var u := ApplyUpdate(list, updated);
    var x' := Swap(x, updated);
    assert Seqs.Insert(x, list, CreatedAt) == [x] + list;
    UpdateCons(x, list, updated);
    if list != [] {
      assert list[0] in list;
      assert CreatedAt(u[0]) == CreatedAt(list[0]);
    }
    assert Seqs.Insert(x', u, CreatedAt) == [x'] + u;
  }

  /** Inserting past the head, then updating: the updated head stays in front. */
  lemma UpdateAfterInsertPastHead(x: Pass, list: seq<Pass>, updated: Pass)
    requires Seqs.SortedDesc(list, CreatedAt)
    requires list != [] && CreatedAt(x) < CreatedAt(list[0])
    ensures Seqs.SortedDesc(list[1..], CreatedAt)
    ensures ApplyUpdate(Seqs.Insert(x, list, CreatedAt), updated)
            == [Swap(list[0], updated)] + ApplyUpdate(Seqs.Insert(x, list[1..], CreatedAt), updated)
  {
    assert list == [list[0]] + list[1..];
    Seqs.InsertPastHead(x, list[0], list[1..], CreatedAt);
    UpdateCons(list[0], Seqs.Insert(x, list[1..], CreatedAt), updated);
  }

  /** Updating, then inserting past the updated head, which keeps its creation time. */
  lemma InsertPastUpdatedHead(x: Pass, list: seq<Pass>, updated: Pass)
    requires Seqs.SortedDesc(list, CreatedAt)
    requires KeepsCreated(list, updated)
    requires list != [] && CreatedAt(x) < CreatedAt(list[0])
    ensures Seqs.SortedDesc(ApplyUpdate(list[1..], updated), CreatedAt)
    ensures (UpdateKeepsOrder(list, updated);
             Seqs.Insert(x, ApplyUpdate(list, updated), CreatedAt)
             == [Swap(list[0], updated)] + Seqs.Insert(x, ApplyUpdate(list[1..], updated), CreatedAt))
  {
    UpdateKeepsOrder(list, updated);
    var y := list[0];
    assert list == [y] + list[1..];
    assert y in list;
    UpdateCons(y, list[1..], updated);
    Seqs.InsertPastHead(x, Swap(y, updated), ApplyUpdate(list[1..], updated), CreatedAt);
  }

  /** The inductive step of `UpdateInsert`: `x` goes past the head, which the update keeps in place. */
  lemma UpdateInsertStep(x: Pass, list: seq<Pass>, updated: Pass)
    requires Seqs.SortedDesc(list, CreatedAt)
    requires KeepsCreated(list, updated)
    requires CreatedAt(Swap(x, updated)) == CreatedAt(x)
    requires list != [] && CreatedAt(x) < CreatedAt(list[0])
    requires (UpdateKeepsOrder(list[1..], updated);
              ApplyUpdate(Seqs.Insert(x, list[1..], CreatedAt), updated)
              == Seqs.Insert(Swap(x, updated), ApplyUpdate(list[1..], updated), CreatedAt))
    ensures (UpdateKeepsOrder(list, updated);
             ApplyUpdate(Seqs.Insert(x, list, CreatedAt), updated)
             == Seqs.Insert(Swap(x, updated), ApplyUpdate(list, updated), CreatedAt))
  {
    UpdateAfterInsertPastHead(x, list, updated);
    InsertPastUpdatedHead(Swap(x, updated), list, updated);
  }

  /** An update that keeps creation times commutes with inserting into the sorted page. */
  lemma {:induction false} UpdateInsert(x: Pass, list: seq<Pass>, updated: Pass)
    requires Seqs.SortedDesc(list, CreatedAt)
    requires KeepsCreated(list, updated)
    requires CreatedAt(Swap(x, updated)) == CreatedAt(x)
    ensures (UpdateKeepsOrder(list, updated);
             ApplyUpdate(Seqs.Insert(x, list, CreatedAt), updated)
             == Seqs.Insert(Swap(x, updated), ApplyUpdate(list, updated), CreatedAt))
    decreases |list|
  {
    if list == [] || CreatedAt(x) >= CreatedAt(list[0]) {
      UpdateInsertFront(x, list, updated);
    } else {
      var tail := list[1..];
      assert forall p :: p in tail ==> p in list;
      UpdateInsert(x, tail, updated);
      UpdateInsertStep(x, list, updated);
    }
  }

  /**
   * The pushed update and the newest-first sort commute: updating the sorted
   * page is sorting the updated reply, as long as the update keeps creation times.
   */
  lemma {:induction false} UpdateSort(list: seq<Pass>, updated: Pass)
    requires KeepsCreated(list, updated)
    ensures ApplyUpdate(SortByCreated(list), updated) == SortByCreated(ApplyUpdate(list, updated))
    decreases |list|
  {
    if list != [] {
      var x := list[0];
      var tail := list[1..];
      assert list == [x] + tail;
      assert forall p :: p in tail ==> p in list;
      UpdateSort(tail, updated);
      var sorted := SortByCreated(tail);
      assert forall p :: p in sorted ==> p in tail by {
        forall p | p in sorted ensures p in tail {
          assert p in multiset(sorted);
        }
      }
      assert x in list;
      UpdateInsert(x, sorted, updated);
      UpdateCons(x, tail, updated);
      var x' := Swap(x, updated);
      var ut := ApplyUpdate(tail, updated);
      assert ([x'] + ut)[0] == x' && ([x'] + ut)[1..] == ut;
    }
  }

  /** The pushed approval, applied to the sorted page, gives the page a fresh fetch shows. */
  lemma ApprovalPageInSync(s: State, passId: PassId, entered: Option<string>, now: int, viewer: Caller)
    requires PassProtocol.UniqueIds(s.passes)
    requires Passes.Approve(s, passId, entered, now).reply.Approved?
    ensures var out := Passes.Approve(s, passId, entered, now);
            ApplyUpdate(SortByCreated(Passes.ListMine(s, viewer)), out.reply.pass)
            == SortByCreated(Passes.ListMine(out.next, viewer))
  {
    var out := Passes.Approve(s, passId, entered, now);
    var mine := Passes.ListMine(s, viewer);
    var i := Passes.FindById(s.passes, passId).value;
    ApprovalUpdateInSync(s, passId, entered, now, viewer);
    forall p | p in mine && p.id == out.reply.pass.id ensures p.createdAt == out.reply.pass.createdAt {
      InMine(s, viewer, p);
      var k :| 0 <= k < |s.passes| && s.passes[k] == p;
      assert k == i;
    }
    UpdateSort(mine, out.reply.pass);
  }

  /** After a successful drop, filtering the sorted page gives the page a fresh fetch shows. */
  lemma DropPageInSync(s: State, caller: Caller, passId: PassId, viewer: Caller)
    requires PassProtocol.UniqueIds(s.passes)
    requires Passes.Drop(s, caller, passId).reply.Dropped?
    ensures DropLocal(SortByCreated(Passes.ListMine(s, viewer)), passId)
            == SortByCreated(Passes.ListMine(Passes.Drop(s, caller, passId).next, viewer))
  {
    DropInSync(s, caller, passId, viewer);
    Seqs.FilterSortDesc(Passes.ListMine(s, viewer), NotId(passId), CreatedAt);
  }

  /**
   * After a successful create, prepending to the sorted page gives the page a
   * fresh fetch shows, when every stored pass is older than the new one. (With
   * an equal creation time the stable sort keeps the older pass in front.)
   */
  lemma CreatePageInSync(s: State, caller: Caller, purpose: Option<string>, kind: Option<string>,
                         id: PassId, now: int, secret: string)
    requires Passes.Create(s, caller, purpose, kind, id, now, secret).reply.Created?
    requires forall j :: 0 <= j < |s.passes| ==> s.passes[j].createdAt < now
    ensures var out := Passes.Create(s, caller, purpose, kind, id, now, secret);
            Prepend(out.reply.pass, SortByCreated(Passes.ListMine(s, caller)))
            == SortByCreated(Passes.ListMine(out.next, caller))
  {
    var out := Passes.Create(s, caller, purpose, kind, id, now, secret);
    var mine := Passes.ListMine(s, caller);
    CreateInSync(s, caller, purpose, kind, id, now, secret);
    Seqs.FilterBounded(s.passes, Passes.OwnedBy(caller.id), CreatedAt, now - 1);
    Seqs.SortDescNewestLast(mine, out.reply.pass, CreatedAt);
  }
}

=== FILE: pass_model.dfy ===
/**
 * The records of the pass service (`server/routes/passes.js`): a pass, the
 * caller the authentication layer injects, the armed code timers, the push
 * notifications, and the server state that holds them. Timestamps are integer
 * milliseconds; ISO strings are not modelled.
 */
module PassModel {
  import opened Wrappers
  import Tokens

  type PassId = string
  type UserId = string

  datatype Status = Pending | Completed | Expired

  /** The status as stored and reported: `'pending'`, `'completed'`, `'expired'`. */
  function StatusName(s: Status): (name: string)
    ensures name in {"pending", "completed", "expired"}
    ensures name == "pending" <==> s == Pending
    ensures name == "completed" <==> s == Completed
    ensures name == "expired" <==> s == Expired
  {
    match s
    case Pending => "pending"
    case Completed => "completed"
    case Expired => "expired"
  }

  /** The six destinations a pass may be requested for. */
  const ValidPurposes: seq<string> :=
    ["Library", "Food Court", "Sports Complex", "Main Gate", "Auditorium", "Hostel"]

  const StandardType: string := "standard"

  /** A pass is valid for three hours after its creation. */
  const PassLifetimeMs: int := 3 * 60 * 60 * 1000

  /** The QR token's own `expiresIn: '3h'`, in seconds. */
  const QrLifetimeSec: nat := 3 * 60 * 60

  /** An approval code's timer fires five minutes after the scan. */
  const CodeLifetimeMs: int := 5 * 60 * 1000

  /** `Math.floor(1000 + Math.random() * 9000)` lies in this range. */
  const CodeMin: nat := 1000
  const CodeMax: nat := 9999

  /** A stored pass. `qrCode` holds the signed token the QR image encodes. */
  datatype Pass = Pass(
    id: PassId,
    userId: UserId,
    userName: string,
    purpose: string,
    kind: string,
    status: Status,
    createdAt: int,
    expiresAt: int,
    completedAt: Option<int>,
    qrCode: Tokens.Token)

  /** The verified identity the authentication layer attaches to a request. */
  datatype Caller = Caller(id: UserId, name: string)

  /** A `setTimeout` that, when it fires, deletes the code stored for `passId`. */
  datatype Timer = Timer(passId: PassId, due: int)

  /** A `passUpdate` event pushed to the room named after the owning user. */
  datatype Notice = PassUpdate(room: UserId, pass: Pass)

  /**
   * The server's state: the pass store, the in-memory approval codes, the
   * timers still to fire (never cancelled), and every notification emitted.
   */
  datatype State = State(
    passes: seq<Pass>,
    codes: map<PassId, string>,
    timers: multiset<Timer>,
    outbox: seq<Notice>)

  const Initial: State := State([], map[], multiset{}, [])
}

=== FILE: pass_protocol.dfy ===
/**
 * The pass service as a state machine: the invariants every handler keeps,
 * the status edges it can take, and the behaviour of the approval codes as the
 * code has them (optional-value gate, no state check on approval, codes that
 * outlive their pass, timers that are never cancelled).
 */
module PassProtocol {
  import opened Wrappers
  import opened PassModel
  import opened Passes
  import Tokens
  import Auth
  import Text

  // ---------------------------------------------------------------------------
  // Invariants
  // ---------------------------------------------------------------------------

  /** No user holds two pending passes. */
  ghost predicate OnePendingPerUser(passes: seq<Pass>) {
    forall i, j :: 0 <= i < j < |passes| && passes[i].status == Pending && passes[j].status == Pending ==>
      passes[i].userId != passes[j].userId
  }

  /** Every pass expires exactly three hours after its creation. */
  ghost predicate ThreeHourWindow(passes: seq<Pass>) {
    forall i :: 0 <= i < |passes| ==> passes[i].expiresAt == passes[i].createdAt + PassLifetimeMs
  }

  /** A pass carries a completion time exactly when it is completed. */
  ghost predicate CompletionStamped(passes: seq<Pass>) {
    forall i :: 0 <= i < |passes| ==> (passes[i].completedAt.Some? <==> passes[i].status == Completed)
  }

  /** Every pass's QR token was signed, at its creation instant, for its own id. */
  ghost predicate TokensBound(passes: seq<Pass>, secret: string) {
    forall i :: 0 <= i < |passes| ==>
      passes[i].qrCode == Tokens.Sign(Tokens.PassClaims(passes[i].id), passes[i].createdAt, QrLifetimeSec, secret)
  }

  /** Every stored approval code has four digits and no leading zero. */
  ghost predicate CodesWellFormed(codes: map<PassId, string>) {
    forall k :: k in codes ==> IsApprovalCode(codes[k])
  }

  ghost predicate Inv(s: State, secret: string) {
    && OnePendingPerUser(s.passes)
    && ThreeHourWindow(s.passes)
    && CompletionStamped(s.passes)
    && TokensBound(s.passes, secret)
    && CodesWellFormed(s.codes)
  }

  /** No two stored passes share an id. The code does not ensure it; fresh ids do. */
  ghost predicate UniqueIds(passes: seq<Pass>) {
    forall i, j :: 0 <= i < j < |passes| ==> passes[i].id != passes[j].id
  }

  lemma InitialInv(secret: string)
    ensures Inv(Initial, secret) && UniqueIds(Initial.passes)
  {
  }

  // ---------------------------------------------------------------------------
  // Events
  // ---------------------------------------------------------------------------

  /** A request to one of the six handlers, or an armed timer firing. */
  datatype Event =
    | CreatePass(caller: Caller, purpose: Option<string>, kind: Option<string>, id: PassId, now: int)
    | ListMinePasses(caller: Caller)
    | ListAllPasses
    | Scan(users: seq<Auth.User>, token: Tokens.Token, now: int, draw: nat)
    | SubmitCode(passId: PassId, code: Option<string>, now: int)
    | DropPass(caller: Caller, passId: PassId)
    | TimerFires(timer: Timer)

  /** A draw is one `Math.random` can produce; a timer can only fire if it was armed. */
  predicate Enabled(s: State, e: Event) {
    match e
    case Scan(_, _, _, draw) => CodeMin <= draw <= CodeMax
    case TimerFires(t) => t in s.timers
    case _ => true
  }

  function Step(s: State, e: Event, secret: string): Outcome
    requires Enabled(s, e)
  {
    match e
    case CreatePass(caller, purpose, kind, id, now) => Create(s, caller, purpose, kind, id, now, secret)
    case ListMinePasses(caller) => Outcome(Listed(ListMine(s, caller)), s)
    case ListAllPasses => Outcome(Listed(ListAll(s)), s)
    case Scan(users, token, now, draw) => Verify(s, users, token, now, secret, draw)
    case SubmitCode(pid, code, now) => Approve(s, pid, code, now)
    case DropPass(caller, pid) => Drop(s, caller, pid)
    case TimerFires(t) => Outcome(NoReply, CodeTimeout(s, t))
  }

  /** Runs events in order; `None` if one of them is not enabled when its turn comes. */
  function Run(s: State, events: seq<Event>, secret: string): Option<State>
    decreases |events|
  {
    if events == [] then Some(s)
    else if !Enabled(s, events[0]) then None
    else Run(Step(s, events[0], secret).next, events[1..], secret)
  }

  // ---------------------------------------------------------------------------
  // Each handler keeps the invariants
  // ---------------------------------------------------------------------------

  /** Removing one record keeps every per-record and pairwise property of the rest. */
  lemma RemovalKeepsInvariants(passes: seq<Pass>, i: nat, secret: string)
    requires i < |passes|
    requires OnePendingPerUser(passes) && ThreeHourWindow(passes) && CompletionStamped(passes)
    requires TokensBound(passes, secret)
    ensures var rest := passes[..i] + passes[i + 1..];
            && OnePendingPerUser(rest) && ThreeHourWindow(rest) && CompletionStamped(rest)
            && TokensBound(rest, secret)
  {
    var rest := passes[..i] + passes[i + 1..];
    assert forall k :: 0 <= k < |rest| ==> rest[k] == passes[if k < i then k else k + 1];
  }

  /** Replacing one record by one with the same id, owner, times and token, and not pending, keeps the invariants. */
  lemma SettleKeepsInvariants(passes: seq<Pass>, i: nat, p: Pass, secret: string)
    requires i < |passes|
    requires OnePendingPerUser(passes) && ThreeHourWindow(passes) && CompletionStamped(passes)
    requires TokensBound(passes, secret)
    requires p.status != Pending
    requires p.id == passes[i].id && p.createdAt == passes[i].createdAt && p.expiresAt == passes[i].expiresAt
    requires p.qrCode == passes[i].qrCode
    requires p.completedAt.Some? <==> p.status == Completed
    ensures var after := passes[i := p];
            && OnePendingPerUser(after) && ThreeHourWindow(after) && CompletionStamped(after)
            && TokensBound(after, secret)
  {
  }

  /** Create keeps the invariants; in particular it never gives a user a second pending pass. */
  lemma CreateKeepsInv(s: State, caller: Caller, purpose: Option<string>, kind: Option<string>,
                       id: PassId, now: int, secret: string)
    requires Inv(s, secret)
    ensures Inv(Create(s, caller, purpose, kind, id, now, secret).next, secret)
  {
    var out := Create(s, caller, purpose, kind, id, now, secret);
    if out.reply.Created? {
      var after := out.next.passes;
      var p := out.reply.pass;
      assert after == s.passes + [p];
      assert p.qrCode == Tokens.Sign(Tokens.PassClaims(id), now, QrLifetimeSec, secret);
      forall i, j | 0 <= i < j < |after| && after[i].status == Pending && after[j].status == Pending
        ensures after[i].userId != after[j].userId
      {
        if j == |s.passes| {
          assert after[i] == s.passes[i];
          assert !HasPending(s.passes, caller.id);
        }
      }
    }
  }

  lemma VerifyKeepsInv(s: State, users: seq<Auth.User>, token: Tokens.Token, now: int, secret: string, draw: nat)
    requires Inv(s, secret)
    requires CodeMin <= draw <= CodeMax
    ensures Inv(Verify(s, users, token, now, secret, draw).next, secret)
  {
    var out := Verify(s, users, token, now, secret, draw);
    var pid := ScannedId(token, now, secret);
    if pid.Some? && FindById(s.passes, pid.value).Some? {
      var i := FindById(s.passes, pid.value).value;
      var p := s.passes[i];
      if p.status == Pending && now > p.expiresAt {
        SettleKeepsInvariants(s.passes, i, p.(status := Expired), secret);
      }
    }
  }

  lemma ApproveKeepsInv(s: State, passId: PassId, entered: Option<string>, now: int, secret: string)
    requires Inv(s, secret)
    ensures Inv(Approve(s, passId, entered, now).next, secret)
  {
    var out := Approve(s, passId, entered, now);
    if out.reply.Approved? {
      var i := FindById(s.passes, passId).value;
      SettleKeepsInvariants(s.passes, i, out.reply.pass, secret);
    }
  }

  lemma DropKeepsInv(s: State, caller: Caller, passId: PassId, secret: string)
    requires Inv(s, secret)
    ensures Inv(Drop(s, caller, passId).next, secret)
  {
    var out := Drop(s, caller, passId);
    if out.reply.Dropped? {
      var i := FindOwned(s.passes, passId, caller.id).value;
      RemovalKeepsInvariants(s.passes, i, secret);
      assert out.next.passes == s.passes[..i] + s.passes[i + 1..];
    }
  }

  /** Every enabled event keeps the invariants. */
  lemma StepKeepsInv(s: State, e: Event, secret: string)
    requires Inv(s, secret) && Enabled(s, e)
    ensures Inv(Step(s, e, secret).next, secret)
  {
    match e
    case CreatePass(caller, purpose, kind, id, now) => CreateKeepsInv(s, caller, purpose, kind, id, now, secret);
    case ListMinePasses(_) =>
    case ListAllPasses =>
    case Scan(users, token, now, draw) => VerifyKeepsInv(s, users, token, now, secret, draw);
    case SubmitCode(pid, code, now) => ApproveKeepsInv(s, pid, code, now, secret);
    case DropPass(caller, pid) => DropKeepsInv(s, caller, pid, secret);
    case TimerFires(t) =>
  }

  /** Every run from a state satisfying the invariants ends in one. */
  lemma {:induction false} RunKeepsInv(s: State, events: seq<Event>, secret: string)
    requires Inv(s, secret)
    requires Run(s, events, secret).Some?
    ensures Inv(Run(s, events, secret).value, secret)
    decreases |events|
  {
    if events != [] {
      StepKeepsInv(s, events[0], secret);
      RunKeepsInv(Step(s, events[0], secret).next, events[1..], secret);
    }
  }

  lemma CreateFreshIdStaysUnique(s: State, caller: Caller, purpose: Option<string>, kind: Option<string>,
                                 id: PassId, now: int, secret: string)
    requires UniqueIds(s.passes)
    requires forall i :: 0 <= i < |s.passes| ==> s.passes[i].id != id
    ensures UniqueIds(Create(s, caller, purpose, kind, id, now, secret).next.passes)
  {
  }

  lemma DropKeepsIdsUnique(s: State, caller: Caller, passId: PassId)
    requires UniqueIds(s.passes)
    ensures UniqueIds(Drop(s, caller, passId).next.passes)
  {
    var out := Drop(s, caller, passId);
    if out.reply.Dropped? {
      var i := FindOwned(s.passes, passId, caller.id).value;
      var rest := out.next.passes;
      assert rest == s.passes[..i] + s.passes[i + 1..];
      assert forall k :: 0 <= k < |rest| ==> rest[k] == s.passes[if k < i then k else k + 1];
    }
  }

  /** With a fresh id for every created pass, ids stay unique. */
  lemma FreshIdsStayUnique(s: State, e: Event, secret: string)
    requires UniqueIds(s.passes) && Enabled(s, e)
    requires e.CreatePass? ==> forall i :: 0 <= i < |s.passes| ==> s.passes[i].id != e.id
    ensures UniqueIds(Step(s, e, secret).next.passes)
  {
    match e
    case CreatePass(caller, purpose, kind, id, now) => CreateFreshIdStaysUnique(s, caller, purpose, kind, id, now, secret);
    case ListMinePasses(_) =>
    case ListAllPasses =>
    case Scan(users, token, now, draw) =>
    case SubmitCode(pid, code, now) =>
    case DropPass(caller, pid) => DropKeepsIdsUnique(s, caller, pid);
    case TimerFires(t) =>
  }

  /** Listing changes nothing: in particular it never expires a pass. */
  lemma ReadsChangeNothing(s: State, e: Event, secret: string)
    requires e.ListMinePasses? || e.ListAllPasses?
    ensures Step(s, e, secret).next == s
    ensures e.ListAllPasses? ==> Step(s, e, secret).reply == Listed(s.passes)
  {
  }

  // ---------------------------------------------------------------------------
  // Status edges
  // ---------------------------------------------------------------------------

  /**
   * The status changes the handlers can make to a stored pass: none, pending to
   * completed or expired, and (because approval checks no status) expired or
   * completed to completed. With each handler running to completion before the
   * next starts, nothing ever becomes pending again, and a completed pass never
   * becomes expired.
   */
  predicate Edge(before: Status, after: Status) {
    before == after || before == Pending || after == Completed
  }

  /** Some record of `before` has the id and owner of `q` and reaches its status along an edge. */
  ghost predicate HasOrigin(before: seq<Pass>, q: Pass) {
    exists i :: 0 <= i < |before| && before[i].id == q.id && before[i].userId == q.userId &&
                Edge(before[i].status, q.status)
  }

  /** Every record of `after` has an origin in `before`, except a new pending pass at the end if `created`. */
  ghost predicate FollowsEdges(before: seq<Pass>, after: seq<Pass>, created: bool) {
    forall j :: 0 <= j < |after| ==>
      (created && j == |before| && after[j].status == Pending) || HasOrigin(before, after[j])
  }

  /** Records changed in place, keeping id and owner and moving along edges, have their origins. */
  lemma InPlaceFollowsEdges(before: seq<Pass>, after: seq<Pass>)
    requires |after| == |before|
    requires forall j :: 0 <= j < |after| ==>
               after[j].id == before[j].id && after[j].userId == before[j].userId &&
               Edge(before[j].status, after[j].status)
    ensures FollowsEdges(before, after, false)
  {
    forall j | 0 <= j < |after| ensures HasOrigin(before, after[j]) {
      assert before[j].id == after[j].id;
    }
  }

  lemma CreateFollowsEdges(s: State, caller: Caller, purpose: Option<string>, kind: Option<string>,
                           id: PassId, now: int, secret: string)
    ensures FollowsEdges(s.passes, Create(s, caller, purpose, kind, id, now, secret).next.passes, true)
    ensures var after := Create(s, caller, purpose, kind, id, now, secret).next.passes;
            && s.passes <= after && |after| <= |s.passes| + 1
            && (|after| > |s.passes| ==> after[|s.passes|].id == id && after[|s.passes|].status == Pending)
  {
    var after := Create(s, caller, purpose, kind, id, now, secret).next.passes;
    forall j | 0 <= j < |after| && j < |s.passes| ensures HasOrigin(s.passes, after[j]) {
      assert after[j] == s.passes[j];
    }
  }

  lemma VerifyFollowsEdges(s: State, users: seq<Auth.User>, token: Tokens.Token, now: int, secret: string, draw: nat)
    requires CodeMin <= draw <= CodeMax
    ensures FollowsEdges(s.passes, Verify(s, users, token, now, secret, draw).next.passes, false)
    ensures var after := Verify(s, users, token, now, secret, draw).next.passes;
            && |after| == |s.passes|
            && forall j :: 0 <= j < |after| ==>
                 after[j] == s.passes[j] ||
                 (s.passes[j].status == Pending && after[j] == s.passes[j].(status := Expired))
  {
    InPlaceFollowsEdges(s.passes, Verify(s, users, token, now, secret, draw).next.passes);
  }

  lemma ApproveFollowsEdges(s: State, passId: PassId, entered: Option<string>, now: int)
    ensures FollowsEdges(s.passes, Approve(s, passId, entered, now).next.passes, false)
    ensures var after := Approve(s, passId, entered, now).next.passes;
            && |after| == |s.passes|
            && forall j :: 0 <= j < |after| ==>
                 after[j] == s.passes[j] ||
                 (after[j].id == passId && after[j] == s.passes[j].(status := Completed, completedAt := Some(now)))
  {
    InPlaceFollowsEdges(s.passes, Approve(s, passId, entered, now).next.passes);
  }

  lemma DropFollowsEdges(s: State, caller: Caller, passId: PassId)
    ensures FollowsEdges(s.passes, Drop(s, caller, passId).next.passes, false)
    ensures var after := Drop(s, caller, passId).next.passes;
            after == s.passes ||
            exists i :: 0 <= i < |s.passes| && s.passes[i].id == passId && s.passes[i].userId == caller.id &&
                        s.passes[i].status == Pending &&
                        after == s.passes[..i] + s.passes[i + 1..]
  {
    var out := Drop(s, caller, passId);
    var after := out.next.passes;
    if out.reply.Dropped? {
      var i := FindOwned(s.passes, passId, caller.id).value;
      assert after == s.passes[..i] + s.passes[i + 1..];
      forall j | 0 <= j < |after| ensures HasOrigin(s.passes, after[j]) {
        var k := if j < i then j else j + 1;
        assert after[j] == s.passes[k];
      }
    } else {
      InPlaceFollowsEdges(s.passes, after);
    }
  }

  /**
   * Every record after a step is the new pending pass of a creation, or a
   * record from before the step with the same id and owner, moved along an
   * edge.
   */
  lemma StepFollowsEdges(s: State, e: Event, secret: string)
    requires Enabled(s, e)
    ensures FollowsEdges(s.passes, Step(s, e, secret).next.passes, e.CreatePass?)
  {
    match e
    case CreatePass(caller, purpose, kind, id, now) => CreateFollowsEdges(s, caller, purpose, kind, id, now, secret);
    case ListMinePasses(_) => InPlaceFollowsEdges(s.passes, s.passes);
    case ListAllPasses => InPlaceFollowsEdges(s.passes, s.passes);
    case Scan(users, token, now, draw) => VerifyFollowsEdges(s, users, token, now, secret, draw);
    case SubmitCode(pid, code, now) => ApproveFollowsEdges(s, pid, code, now);
    case DropPass(caller, pid) => DropFollowsEdges(s, caller, pid);
    case TimerFires(t) => InPlaceFollowsEdges(s.passes, s.passes);
  }

  // ---------------------------------------------------------------------------
  // Approval codes
  // ---------------------------------------------------------------------------

  /** A successful approval consumes the code: the same code submitted again is refused. */
  lemma ApprovalCodeIsSingleUse(s: State, passId: PassId, code: string, now: int, later: int)
    requires Approve(s, passId, Some(code), now).reply.Approved?
    ensures var next := Approve(s, passId, Some(code), now).next;
            Approve(next, passId, Some(code), later) == Outcome(Refused(400, InvalidApprovalCode), next)
  {
  }

  /**
   * The gate compares optional values: when no code is stored, a request with
   * no code passes it, and the pass is completed whatever its status, again and
   * again.
   */
  lemma MissingCodeMatchesMissingEntry(s: State, passId: PassId, now: int)
    requires passId !in s.codes && FindById(s.passes, passId).Some?
    ensures var out := Approve(s, passId, None, now);
            && out.reply.Approved? && out.reply.pass.status == Completed
            && Approve(out.next, passId, None, now).reply.Approved?
  {
    var out := Approve(s, passId, None, now);
    var i := FindById(s.passes, passId).value;
    assert out.next.passes[i].id == passId;
  }

  /** Applies `Approve` to each entered code in turn. */
  function ApproveAll(s: State, passId: PassId, attempts: seq<Option<string>>, now: int): State
    decreases |attempts|
  {
    if attempts == [] then s
    else ApproveAll(Approve(s, passId, attempts[0], now).next, passId, attempts[1..], now)
  }

  /** Any number of wrong codes changes nothing, so it never completes the pass. */
  lemma {:induction false} WrongCodesChangeNothing(s: State, passId: PassId, attempts: seq<Option<string>>, now: int)
    requires forall k :: 0 <= k < |attempts| ==> attempts[k] != Lookup(s.codes, passId)
    ensures ApproveAll(s, passId, attempts, now) == s
    decreases |attempts|
  {
    if attempts != [] {
      assert Approve(s, passId, attempts[0], now).next == s;
      WrongCodesChangeNothing(s, passId, attempts[1..], now);
    }
  }

  /**
   * Dropping a pass leaves its code behind; submitting that code afterwards is
   * answered 404 and still leaves it in place.
   */
  lemma DroppedPassKeepsCode(s: State, caller: Caller, passId: PassId, now: int)
    requires UniqueIds(s.passes)
    requires passId in s.codes
    requires Drop(s, caller, passId).reply.Dropped?
    ensures var next := Drop(s, caller, passId).next;
            && next.codes[passId] == s.codes[passId]
            && Approve(next, passId, Some(s.codes[passId]), now) == Outcome(Refused(404, PassNotFound), next)
  {
    var next := Drop(s, caller, passId).next;
    var i := FindOwned(s.passes, passId, caller.id).value;
    assert next.passes == s.passes[..i] + s.passes[i + 1..];
    forall j | 0 <= j < |next.passes| ensures next.passes[j].id != passId {
      var k := if j < i then j else j + 1;
      assert next.passes[j] == s.passes[k];
    }
  }

  /**
   * Timers are never cancelled: after two scans of the same pass, the timer of
   * the first scan deletes the code the second scan issued.
   */
  lemma StaleTimerClearsNewerCode(s: State, users: seq<Auth.User>, t1: Tokens.Token, t2: Tokens.Token,
                                  now1: int, now2: int, secret: string, d1: nat, d2: nat)
    requires CodeMin <= d1 <= CodeMax && CodeMin <= d2 <= CodeMax
    requires Verify(s, users, t1, now1, secret, d1).reply.Verified?
    requires var s1 := Verify(s, users, t1, now1, secret, d1).next;
             Verify(s1, users, t2, now2, secret, d2).reply.Verified?
    requires ScannedId(t1, now1, secret) == ScannedId(t2, now2, secret)
    ensures var s1 := Verify(s, users, t1, now1, secret, d1).next;
            var s2 := Verify(s1, users, t2, now2, secret, d2).next;
            var pid := ScannedId(t1, now1, secret).value;
            var stale := Timer(pid, now1 + CodeLifetimeMs);
            && Text.DecimalValue(s2.codes[pid]) == d2
            && stale in s2.timers
            && pid !in CodeTimeout(s2, stale).codes
  {
  }

  /**
   * Approval checks no status: a pass scanned while valid, then rescanned after
   * its expiry (which stores it as expired but keeps its code), is completed by
   * the earlier code. Expired becomes completed.
   */
  lemma ExpiredPassCanBeCompleted(s: State, users: seq<Auth.User>, token: Tokens.Token, now: int,
                                  secret: string, draw: nat, later: int)
    requires CodeMin <= draw <= CodeMax
    requires ScannedId(token, now, secret).Some?
    requires var pid := ScannedId(token, now, secret).value;
             && pid in s.codes
             && FindById(s.passes, pid).Some?
             && s.passes[FindById(s.passes, pid).value].status == Pending
             && now > s.passes[FindById(s.passes, pid).value].expiresAt
    ensures var pid := ScannedId(token, now, secret).value;
            var s1 := Verify(s, users, token, now, secret, draw).next;
            var i := FindById(s.passes, pid).value;
            && s1.passes[i].status == Expired
            && var out := Approve(s1, pid, Some(s.codes[pid]), later);
               out.reply.Approved? && out.next.passes[i].status == Completed
  {
    var pid := ScannedId(token, now, secret).value;
    var i := FindById(s.passes, pid).value;
    var s1 := Verify(s, users, token, now, secret, draw).next;
    assert s1.passes == s.passes[i := s.passes[i].(status := Expired)];
    assert FindById(s1.passes, pid) == Some(i) by {
      assert forall j :: 0 <= j < |s1.passes| ==> s1.passes[j].id == s.passes[j].id;
    }
  }

  // ---------------------------------------------------------------------------
  // Expiry
  // ---------------------------------------------------------------------------

  /**
   * With one clock reading per scan, the wall-clock expiry branch is out of
   * reach for a pass's own token: the token was signed, at the pass's
   * creation, for the same three hours counted in whole seconds, so by the
   * time `now > expiresAt` the token no longer decodes, the scan is refused as
   * an invalid QR code, and the pass stays as it was (pending, if it was).
   */
  lemma OwnTokenLapsesBeforeExpiryCheck(s: State, users: seq<Auth.User>, i: nat, now: int,
                                        secret: string, draw: nat)
    requires Inv(s, secret)
    requires CodeMin <= draw <= CodeMax
    requires i < |s.passes| && now > s.passes[i].expiresAt
    ensures Verify(s, users, s.passes[i].qrCode, now, secret, draw) == Outcome(Refused(400, InvalidQrCode), s)
  {
    var p := s.passes[i];
    Tokens.SignedTokenLapses(Tokens.PassClaims(p.id), p.createdAt, QrLifetimeSec, secret, now);
  }

  /**
   * How close the two clock readings of a scan must be for the expired branch
   * to be out of reach. The last instant a pass's own token still decodes
   * lies `createdAt % 1000 + 2` milliseconds before the first instant at which
   * the wall-clock test sees the pass as expired; a scan whose second reading
   * comes that much later than its first reaches the expired branch.
   */
  lemma ExpiryGapAfterLastDecode(id: PassId, createdAt: int, secret: string)
    ensures var token := Tokens.Sign(Tokens.PassClaims(id), createdAt, QrLifetimeSec, secret);
            var lastDecode := token.exp * 1000 - 1;
            && Tokens.Decode(token, lastDecode, secret) == Some(Tokens.PassClaims(id))
            && Tokens.Decode(token, lastDecode + 1, secret) == None
            && lastDecode + createdAt % 1000 + 2 == createdAt + PassLifetimeMs + 1
  {
    var token := Tokens.Sign(Tokens.PassClaims(id), createdAt, QrLifetimeSec, secret);
    var lastDecode := token.exp * 1000 - 1;
    assert createdAt == (createdAt / 1000) * 1000 + createdAt % 1000;
    assert lastDecode / 1000 == token.exp - 1;
    assert (lastDecode + 1) / 1000 == token.exp;
  }

  /**
   * When `jwt.sign` reads a later second than `createdAt`, the token outlives
   * the pass: one millisecond after `expiresAt` it still decodes, so a scan
   * with a single clock reading reaches the wall-clock test, which stores the
   * pass as expired and refuses it.
   */
  lemma LaterSigningSecondReachesExpiredBranch(s: State, users: seq<Auth.User>, i: nat, secret: string,
                                               signedAt: int)
    requires i < |s.passes| && s.passes[i].status == Pending
    requires FindById(s.passes, s.passes[i].id) == Some(i)
    requires s.passes[i].expiresAt == s.passes[i].createdAt + PassLifetimeMs
    requires signedAt / 1000 > s.passes[i].createdAt / 1000
    requires s.passes[i].createdAt % 1000 < 999
    ensures var p := s.passes[i];
            var token := Tokens.Sign(Tokens.PassClaims(p.id), signedAt, QrLifetimeSec, secret);
            Verify(s, users, token, p.expiresAt + 1, secret, CodeMin) ==
              Outcome(Refused(400, PassHasExpired), s.(passes := s.passes[i := p.(status := Expired)]))
  {
    var p := s.passes[i];
    var now := p.expiresAt + 1;
    var token := Tokens.Sign(Tokens.PassClaims(p.id), signedAt, QrLifetimeSec, secret);
    assert p.createdAt == (p.createdAt / 1000) * 1000 + p.createdAt % 1000;
    assert now / 1000 == p.createdAt / 1000 + QrLifetimeSec;
  }

  // ---------------------------------------------------------------------------
  // The whole protocol
  // ---------------------------------------------------------------------------

  /** A freshly created pass scanned within its token's lifetime yields a code and changes no record. */
  lemma ScanOfFreshPass(s: State, users: seq<Auth.User>, caller: Caller, purpose: string,
                        kind: Option<string>, id: PassId, t0: int, t1: int, secret: string, draw: nat)
    requires purpose in ValidPurposes && !HasPending(s.passes, caller.id)
    requires forall j :: 0 <= j < |s.passes| ==> s.passes[j].id != id
    requires CodeMin <= draw <= CodeMax
    requires t0 <= t1 < t0 + QrLifetimeSec * 1000 - 999
    ensures var c := Create(s, caller, Some(purpose), kind, id, t0, secret);
            && c.reply.Created?
            && FindById(c.next.passes, id) == Some(|s.passes|)
            && var v := Verify(c.next, users, c.reply.pass.qrCode, t1, secret, draw);
               && v.reply.Verified?
               && v.reply.info.passId == id
               && Lookup(v.next.codes, id) == Some(v.reply.info.approvalCode)
               && v.next.passes == c.next.passes && v.next.outbox == s.outbox
  {
    var c := Create(s, caller, Some(purpose), kind, id, t0, secret);
    var n := |s.passes|;
    Tokens.SignDecodeRoundTrip(Tokens.PassClaims(id), t0, QrLifetimeSec, secret, t1);
    assert c.next.passes[n] == c.reply.pass;
    assert FindById(c.next.passes, id) == Some(n);
  }

  /**
   * Submitting the stored code of a pass completes it; a scan of a token for
   * that pass is then refused as already completed.
   */
  lemma ApproveThenRescan(s: State, users: seq<Auth.User>, id: PassId, code: string, now: int,
                          token: Tokens.Token, secret: string, draw: nat)
    requires FindById(s.passes, id).Some? && Lookup(s.codes, id) == Some(code)
    requires ScannedId(token, now, secret) == Some(id)
    requires CodeMin <= draw <= CodeMax
    ensures var a := Approve(s, id, Some(code), now);
            && a.reply.Approved?
            && Verify(a.next, users, token, now, secret, draw) == Outcome(Refused(400, AlreadyMessage(Completed)), a.next)
  {
    var a := Approve(s, id, Some(code), now);
    var i := FindById(s.passes, id).value;
    assert a.next.passes[i].status == Completed;
    assert FindById(a.next.passes, id) == Some(i) by {
      assert forall j :: 0 <= j < |a.next.passes| ==> a.next.passes[j].id == s.passes[j].id;
    }
  }

  /**
   * A user without a pending pass requests one; an admin scans its token within
   * the token's lifetime and receives a code; submitting that code completes
   * the pass, stamps the time, and pushes the completed pass to the owner's
   * room. Scanning the same token again is refused as already completed.
   */
  lemma RequestScanApprove(s: State, users: seq<Auth.User>, caller: Caller, purpose: string,
                           kind: Option<string>, id: PassId, t0: int, t1: int, t2: int,
                           secret: string, draw: nat)
    requires purpose in ValidPurposes && !HasPending(s.passes, caller.id)
    requires forall j :: 0 <= j < |s.passes| ==> s.passes[j].id != id
    requires CodeMin <= draw <= CodeMax
    requires t0 <= t1 < t0 + QrLifetimeSec * 1000 - 999 && t1 <= t2 < t0 + QrLifetimeSec * 1000 - 999
    ensures var c := Create(s, caller, Some(purpose), kind, id, t0, secret);
            && c.reply.Created?
            && var v := Verify(c.next, users, c.reply.pass.qrCode, t1, secret, draw);
               && v.reply.Verified?
               && var a := Approve(v.next, id, Some(v.reply.info.approvalCode), t2);
                  && a.reply.Approved?
                  && a.reply.pass.status == Completed && a.reply.pass.completedAt == Some(t2)
                  && a.next.outbox == s.outbox + [PassUpdate(caller.id, a.reply.pass)]
                  && Verify(a.next, users, c.reply.pass.qrCode, t2, secret, draw)
                     == Outcome(Refused(400, AlreadyMessage(Completed)), a.next)
  {
    var c := Create(s, caller, Some(purpose), kind, id, t0, secret);
    ScanOfFreshPass(s, users, caller, purpose, kind, id, t0, t1, secret, draw);
    var v := Verify(c.next, users, c.reply.pass.qrCode, t1, secret, draw);
    var code := v.reply.info.approvalCode;
    Tokens.SignDecodeRoundTrip(Tokens.PassClaims(id), t0, QrLifetimeSec, secret, t2);
    assert ScannedId(c.reply.pass.qrCode, t2, secret) == Some(id);
    ApproveThenRescan(v.next, users, id, code, t2, c.reply.pass.qrCode, secret, draw);
    assert v.next.passes[|s.passes|] == c.reply.pass;
  }
}

=== FILE: passes.dfy ===
/**
 * The pass handlers of `server/routes/passes.js` as transitions of the server
 * state: each takes the state and the request and returns the reply together
 * with the next state. The file store's read-modify-write becomes a sequence
 * update, `Date.now()` ids and `Math.random()` draws become parameters, and the
 * code-expiry `setTimeout` becomes the explicit event `CodeTimeout`.
 */
module Passes {
  import opened Wrappers
  import opened PassModel
  import Tokens
  import Auth
  import Seqs
  import Text

  /** The body of a successful scan: the pass, its owner's contact and the code to show. */
  datatype ScanInfo = ScanInfo(
    passId: PassId,
    userName: string,
    userEmail: string,
    userRole: string,
    purpose: string,
    kind: string,
    createdAt: int,
    expiresAt: int,
    approvalCode: string)

  datatype Reply =
    | Created(pass: Pass)                   // 201
    | Listed(passes: seq<Pass>)             // 200
    | Verified(info: ScanInfo)              // 200
    | Approved(message: string, pass: Pass) // 200
    | Dropped(message: string)              // 200
    | Refused(status: int, message: string)
    | NoReply                               // a timer firing answers nobody

  datatype Outcome = Outcome(reply: Reply, next: State)

  const InvalidDestination: string := "Invalid destination category"
  const ActivePassExists: string := "You already have an active pass. Please use it or wait for it to expire."
  const InvalidQrCode: string := "Invalid QR Code"
  const PassNotFound: string := "Pass not found"
  const PassHasExpired: string := "This pass has expired (3-hour limit reached)"
  const InvalidApprovalCode: string := "Invalid or expired approval code"
  const ApprovedMessage: string := "Pass approved successfully"
  const NotFoundOrUnauthorized: string := "Pass not found or unauthorized"
  const OnlyPendingDroppable: string := "Only pending passes can be dropped"
  const DroppedMessage: string := "Pass dropped successfully"

  function AlreadyMessage(s: Status): string {
    "Pass is already " + StatusName(s)
  }

  /** `VALID_PURPOSES.includes(purpose)`. */
  predicate ValidPurpose(purpose: Option<string>) {
    purpose.Some? && purpose.value in ValidPurposes
  }

  /** `type || 'standard'`. */
  function PassType(kind: Option<string>): (t: string)
    ensures t != []
    ensures kind.Some? && kind.value != [] ==> t == kind.value
    ensures kind.None? || kind.value == [] ==> t == StandardType
  {
    if kind.Some? && kind.value != [] then kind.value else StandardType
  }

  /** Some pass of user `uid` is pending. */
  predicate HasPending(passes: seq<Pass>, uid: UserId) {
    exists i :: 0 <= i < |passes| && passes[i].userId == uid && passes[i].status == Pending
  }

  /** `passes.findIndex(p => p.id === id)`. */
  function FindById(passes: seq<Pass>, id: PassId): (r: Option<nat>)
    ensures r.Some? ==> r.value < |passes| && passes[r.value].id == id
    ensures r.Some? ==> forall j :: 0 <= j < r.value ==> passes[j].id != id
    ensures r.None? <==> forall j :: 0 <= j < |passes| ==> passes[j].id != id
  {
    Seqs.FindIndex(passes, (p: Pass) => p.id == id)
  }

  /** `passes.findIndex(p => p.id === id && p.userId === uid)`. */
  function FindOwned(passes: seq<Pass>, id: PassId, uid: UserId): (r: Option<nat>)
    ensures r.Some? ==> r.value < |passes| && passes[r.value].id == id && passes[r.value].userId == uid
    ensures r.Some? ==> forall j :: 0 <= j < r.value ==> !(passes[j].id == id && passes[j].userId == uid)
    ensures r.None? <==> forall j :: 0 <= j < |passes| ==> !(passes[j].id == id && passes[j].userId == uid)
  {
    Seqs.FindIndex(passes, (p: Pass) => p.id == id && p.userId == uid)
  }

  /** The pass id a scanned token carries, if it decodes now and carries one. */
  function ScannedId(token: Tokens.Token, now: int, secret: string): (r: Option<PassId>)
    ensures r.Some? <==> Tokens.Decode(token, now, secret).Some? && token.claims.PassClaims?
    ensures r.Some? ==> r.value == token.claims.passId
  {
    var claims := Tokens.Decode(token, now, secret);
    if claims.Some? && claims.value.PassClaims? then Some(claims.value.passId) else None
  }

  /** A code as `Verify` issues it: four decimal digits, the first not zero. */
  predicate IsApprovalCode(code: string) {
    |code| == 4 && Text.AllDigits(code) && code[0] != '0'
  }

  // ---------------------------------------------------------------------------
  // POST /passes
  // ---------------------------------------------------------------------------

  /**
   * Creates a pass for `caller`. An unknown destination and an existing pending
   * pass of the caller are refused with the state untouched; otherwise exactly
   * one pending record, valid for three hours, is appended after the others.
   */
  function Create(s: State, caller: Caller, purpose: Option<string>, kind: Option<string>,
                  id: PassId, now: int, secret: string): (out: Outcome)
    ensures !ValidPurpose(purpose) ==> out == Outcome(Refused(400, InvalidDestination), s)
    ensures ValidPurpose(purpose) && HasPending(s.passes, caller.id) ==>
              out == Outcome(Refused(400, ActivePassExists), s)
    ensures out.reply.Created? <==> ValidPurpose(purpose) && !HasPending(s.passes, caller.id)
    ensures out.reply.Created? ==>
              var p := out.reply.pass;
              && out.next == s.(passes := s.passes + [p])
              && p.id == id && p.userId == caller.id && p.userName == caller.name
              && p.purpose == purpose.value && p.kind == PassType(kind)
              && p.status == Pending && p.completedAt == None
              && p.createdAt == now && p.expiresAt == now + PassLifetimeMs
              && Tokens.Decode(p.qrCode, now, secret) == Some(Tokens.PassClaims(id))
  {
    if !ValidPurpose(purpose) then
      Outcome(Refused(400, InvalidDestination), s)
    else if Seqs.FindIndex(s.passes, (p: Pass) => p.userId == caller.id && p.status == Pending).Some? then
      Outcome(Refused(400, ActivePassExists), s)
    else
      var qr := Tokens.Sign(Tokens.PassClaims(id), now, QrLifetimeSec, secret);
      var p := Pass(id, caller.id, caller.name, purpose.value, PassType(kind), Pending,
                    now, now + PassLifetimeMs, None, qr);
      Outcome(Created(p), s.(passes := s.passes + [p]))
  }

  // ---------------------------------------------------------------------------
  // GET /passes/mine and GET /passes
  // ---------------------------------------------------------------------------

  /** `p => p.userId === uid`. */
  function OwnedBy(uid: UserId): Pass -> bool {
    (p: Pass) => p.userId == uid
  }

  /** The caller's passes, in store order, each as often as it is stored. */
  function ListMine(s: State, caller: Caller): (r: seq<Pass>)
    ensures forall i :: 0 <= i < |r| ==> r[i].userId == caller.id
    ensures forall p :: multiset(r)[p] == if p.userId == caller.id then multiset(s.passes)[p] else 0
  {
    Seqs.FilterCounts(s.passes, OwnedBy(caller.id));
    Seqs.Filter(s.passes, OwnedBy(caller.id))
  }

  /** Every stored pass, as stored: reading neither expires nor reorders anything. */
  function ListAll(s: State): (r: seq<Pass>)
    ensures multiset(r) == multiset(s.passes)
  {
    s.passes
  }

  // ---------------------------------------------------------------------------
  // POST /passes/verify
  // ---------------------------------------------------------------------------

  /** `users.find(u => u.id === uid)`. */
  function FindUser(users: seq<Auth.User>, uid: UserId): (r: Option<nat>)
    ensures r.Some? ==> r.value < |users| && users[r.value].id == uid
    ensures r.Some? ==> forall j :: 0 <= j < r.value ==> users[j].id != uid
    ensures r.None? <==> forall j :: 0 <= j < |users| ==> users[j].id != uid
  {
    Seqs.FindIndex(users, (u: Auth.User) => u.id == uid)
  }

  /** `student?.email || 'N/A'` and `student?.role || 'user'`. */
  function Contact(users: seq<Auth.User>, uid: UserId): (c: (string, string))
    ensures c.0 != [] && c.1 != []
    ensures FindUser(users, uid).None? ==> c == ("N/A", Auth.UserRole)
    ensures FindUser(users, uid).Some? ==>
              var student := users[FindUser(users, uid).value];
              && (student.email != [] ==> c.0 == student.email)
              && (student.email == [] ==> c.0 == "N/A")
              && (student.role != [] ==> c.1 == student.role)
              && (student.role == [] ==> c.1 == Auth.UserRole)
  {
    match FindUser(users, uid)
    case Some(k) =>
      (if users[k].email != [] then users[k].email else "N/A",
       if users[k].role != [] then users[k].role else Auth.UserRole)
    case None => ("N/A", Auth.UserRole)
  }

  /**
   * An admin scans `token`. Nothing changes when the token does not decode
   * (400), names no stored pass (404) or names a pass that is not pending (400,
   * naming its status). A pending pass past `expiresAt` (strictly) is stored as
   * expired and refused, with no code issued. Otherwise the store is unchanged
   * and the pass gets a fresh four-digit code, replacing any earlier one, and
   * a five-minute timer.
   */
  function Verify(s: State, users: seq<Auth.User>, token: Tokens.Token, now: int, secret: string,
                  draw: nat): (out: Outcome)
    requires CodeMin <= draw <= CodeMax
    ensures Tokens.Decode(token, now, secret).None? ==> out == Outcome(Refused(400, InvalidQrCode), s)
    ensures Tokens.Decode(token, now, secret).Some? &&
            (ScannedId(token, now, secret).None? || FindById(s.passes, ScannedId(token, now, secret).value).None?) ==>
              out == Outcome(Refused(404, PassNotFound), s)
    ensures ScannedId(token, now, secret).Some? ==>
              var i := FindById(s.passes, ScannedId(token, now, secret).value);
              i.Some? ==>
                var p := s.passes[i.value];
                && (p.status != Pending ==> out == Outcome(Refused(400, AlreadyMessage(p.status)), s))
                && (p.status == Pending && now > p.expiresAt ==>
                      out == Outcome(Refused(400, PassHasExpired),
                                     s.(passes := s.passes[i.value := p.(status := Expired)])))
    ensures out.reply.Verified? <==>
              && ScannedId(token, now, secret).Some?
              && FindById(s.passes, ScannedId(token, now, secret).value).Some?
              && var p := s.passes[FindById(s.passes, ScannedId(token, now, secret).value).value];
                 p.status == Pending && now <= p.expiresAt
    ensures out.reply.Verified? ==>
              var pid := ScannedId(token, now, secret).value;
              var code := out.reply.info.approvalCode;
              && IsApprovalCode(code) && Text.DecimalValue(code) == draw
              && out.reply.info.passId == pid
              && out.next == s.(codes := s.codes[pid := code],
                                timers := s.timers + multiset{Timer(pid, now + CodeLifetimeMs)})
              && var p := s.passes[FindById(s.passes, pid).value];
                 && (out.reply.info.userEmail, out.reply.info.userRole) == Contact(users, p.userId)
                 && out.reply.info.userName == p.userName
                 && out.reply.info.purpose == p.purpose && out.reply.info.kind == p.kind
                 && out.reply.info.createdAt == p.createdAt && out.reply.info.expiresAt == p.expiresAt
    ensures !out.reply.Verified? ==>
              out.next.codes == s.codes && out.next.timers == s.timers && out.next.outbox == s.outbox
  {
    match Tokens.Decode(token, now, secret)
    case None => Outcome(Refused(400, InvalidQrCode), s)
    case Some(claims) =>
      if !claims.PassClaims? then
        // `passes.find(p => p.id === undefined)` finds nothing
        Outcome(Refused(404, PassNotFound), s)
      else
        var pid := claims.passId;
        match FindById(s.passes, pid)
        case None => Outcome(Refused(404, PassNotFound), s)
        case Some(i) =>
          var p := s.passes[i];
          if p.status != Pending then
            Outcome(Refused(400, AlreadyMessage(p.status)), s)
          else if now > p.expiresAt then
            Outcome(Refused(400, PassHasExpired), s.(passes := s.passes[i := p.(status := Expired)]))
          else
            var code := Text.DecimalString(draw);
            Text.FourDigitNumeral(draw);
            Text.DecimalRoundTrip(draw);
            var contact := Contact(users, p.userId);
            var info := ScanInfo(pid, p.userName, contact.0, contact.1, p.purpose, p.kind,
                                 p.createdAt, p.expiresAt, code);
            Outcome(Verified(info),
                    s.(codes := s.codes[pid := code],
                       timers := s.timers + multiset{Timer(pid, now + CodeLifetimeMs)}))
  }

  // ---------------------------------------------------------------------------
  // POST /passes/approve
  // ---------------------------------------------------------------------------

  /**
   * An admin submits `entered` for `passId`. The gate compares the stored code
   * and the entered one as optional values, so "no code" matches "no code".
   * A mismatch changes nothing (400); so does an unknown pass (404), which also
   * leaves the code in place. On success the first pass with that id becomes
   * completed at `now`, whatever its status was, its code is deleted, and one
   * `passUpdate` goes to the owner's room.
   */
  function Approve(s: State, passId: PassId, entered: Option<string>, now: int): (out: Outcome)
    ensures Lookup(s.codes, passId) != entered ==> out == Outcome(Refused(400, InvalidApprovalCode), s)
    ensures Lookup(s.codes, passId) == entered && FindById(s.passes, passId).None? ==>
              out == Outcome(Refused(404, PassNotFound), s)
    ensures out.reply.Approved? <==> Lookup(s.codes, passId) == entered && FindById(s.passes, passId).Some?
    ensures out.reply.Approved? ==>
              var i := FindById(s.passes, passId).value;
              var done := s.passes[i].(status := Completed, completedAt := Some(now));
              && out.reply.message == ApprovedMessage
              && out.reply.pass == done
              && out.next.passes == s.passes[i := done]
              && passId !in out.next.codes
              && out.next.codes == s.codes - {passId}
              && out.next.timers == s.timers
              && out.next.outbox == s.outbox + [PassUpdate(s.passes[i].userId, done)]
  {
    if Lookup(s.codes, passId) != entered then
      Outcome(Refused(400, InvalidApprovalCode), s)
    else
      match FindById(s.passes, passId)
      case None => Outcome(Refused(404, PassNotFound), s)
      case Some(i) =>
        var done := s.passes[i].(status := Completed, completedAt := Some(now));
        Outcome(Approved(ApprovedMessage, done),
                State(s.passes[i := done], s.codes - {passId}, s.timers,
                      s.outbox + [PassUpdate(done.userId, done)]))
  }

  // ---------------------------------------------------------------------------
  // DELETE /passes/:id
  // ---------------------------------------------------------------------------

  /**
   * The owner drops a pass. Without a record matching both id and owner the
   * reply is 404; a matching record that is not pending gives 400; either way
   * nothing changes. On success exactly that record is removed, the others keep
   * their order, and the approval codes are left as they were.
   */
  function Drop(s: State, caller: Caller, passId: PassId): (out: Outcome)
    ensures FindOwned(s.passes, passId, caller.id).None? ==>
              out == Outcome(Refused(404, NotFoundOrUnauthorized), s)
    ensures FindOwned(s.passes, passId, caller.id).Some? &&
            s.passes[FindOwned(s.passes, passId, caller.id).value].status != Pending ==>
              out == Outcome(Refused(400, OnlyPendingDroppable), s)
    ensures out.reply.Dropped? <==>
              FindOwned(s.passes, passId, caller.id).Some? &&
              s.passes[FindOwned(s.passes, passId, caller.id).value].status == Pending
    ensures out.reply.Dropped? ==>
              var i := FindOwned(s.passes, passId, caller.id).value;
              && out.reply.message == DroppedMessage
              && |out.next.passes| == |s.passes| - 1
              && out.next.passes[..i] == s.passes[..i]
              && out.next.passes[i..] == s.passes[i + 1..]
              && out.next.codes == s.codes && out.next.timers == s.timers && out.next.outbox == s.outbox
  {
    match FindOwned(s.passes, passId, caller.id)
    case None => Outcome(Refused(404, NotFoundOrUnauthorized), s)
    case Some(i) =>
      if s.passes[i].status != Pending then
        Outcome(Refused(400, OnlyPendingDroppable), s)
      else
        Outcome(Dropped(DroppedMessage), s.(passes := s.passes[..i] + s.passes[i + 1..]))
  }

  // ---------------------------------------------------------------------------
  // The five-minute timer
  // ---------------------------------------------------------------------------

  /**
   * An armed timer fires: it deletes whatever code is stored for its pass now,
   * even one issued by a later scan, and touches nothing else.
   */
  function CodeTimeout(s: State, t: Timer): (r: State)
    requires t in s.timers
    ensures t.passId !in r.codes
    ensures forall k :: k in s.codes && k != t.passId ==> k in r.codes && r.codes[k] == s.codes[k]
    ensures r.codes.Keys <= s.codes.Keys
    ensures r.timers[t] == s.timers[t] - 1
    ensures forall u :: u != t ==> r.timers[u] == s.timers[u]
    ensures r.passes == s.passes && r.outbox == s.outbox
  {
    s.(codes := s.codes - {t.passId}, timers := s.timers - multiset{t})
  }
}

=== FILE: routing.dfy ===
/**
 * The client's routing in `client/src/App.jsx`: the route table, the
 * `ProtectedRoute` guard in front of the two dashboards, and the catch-all
 * redirect to the landing page.
 */
module Routing {
  import opened Wrappers

  type Path = string

  const AdminRole: string := "admin"

  /** The session as the guard sees it: still loading, and the signed-in user's role if any. */
  datatype Session = Session(loading: bool, role: Option<string>)

  /** What the guard renders: the spinner, a redirect, or the protected page. */
  datatype Guarded = Spinner | RedirectTo(target: Path) | Children

  /** `ProtectedRoute({ adminOnly })`. */
  function Guard(session: Session, adminOnly: bool): (g: Guarded)
    ensures session.loading ==> g == Spinner
    ensures !session.loading && session.role.None? ==> g == RedirectTo("/login")
    ensures !session.loading && session.role.Some? ==>
              (g == Children <==> (session.role.value == AdminRole) == adminOnly)
    ensures !session.loading && session.role.Some? && adminOnly && session.role.value != AdminRole ==>
              g == RedirectTo("/dashboard")
    ensures !session.loading && session.role.Some? && !adminOnly && session.role.value == AdminRole ==>
              g == RedirectTo("/admin")
    ensures g.RedirectTo? ==> g.target in {"/login", "/dashboard", "/admin"}
  {
    if session.loading then Spinner
    else if session.role.None? then RedirectTo("/login")
    else if adminOnly && session.role.value != AdminRole then RedirectTo("/dashboard")
    else if !adminOnly && session.role.value == AdminRole then RedirectTo("/admin")
    else Children
  }

  /** The pages behind the routes. */
  datatype Page = Landing | Login | AdminLogin | Register | Privacy | Dashboard | Admin

  /** What a path renders: a page, the spinner, or a redirect. */
  datatype Screen = Show(page: Page) | Loading | Redirect(target: Path)

  /** The route table: five open pages, two guarded ones, and `*` to `/`. */
  function Route(path: Path, session: Session): (r: Screen)
    ensures path !in {"/", "/login", "/admin/login", "/register", "/privacy", "/dashboard", "/admin"} ==>
              r == Redirect("/")
    ensures path in {"/", "/login", "/admin/login", "/register", "/privacy"} ==> r.Show?
    ensures path == "/" ==> r == Show(Landing)
    ensures path == "/login" ==> r == Show(Login)
    ensures path == "/admin/login" ==> r == Show(AdminLogin)
    ensures path == "/register" ==> r == Show(Register)
    ensures path == "/privacy" ==> r == Show(Privacy)
    ensures r.Show? && r.page == Dashboard ==> session.role.Some? && session.role.value != AdminRole
    ensures r.Show? && r.page == Admin ==> session.role == Some(AdminRole)
  {
    if path == "/" then Show(Landing)
    else if path == "/login" then Show(Login)
    else if path == "/admin/login" then Show(AdminLogin)
    else if path == "/register" then Show(Register)
    else if path == "/privacy" then Show(Privacy)
    else if path == "/dashboard" then Protect(Guard(session, false), Dashboard)
    else if path == "/admin" then Protect(Guard(session, true), Admin)
    else Redirect("/")
  }

  function Protect(g: Guarded, page: Page): Screen {
    match g
    case Spinner => Loading
    case RedirectTo(target) => Redirect(target)
    case Children => Show(page)
  }

  /** Follows redirects, at most `hops` of them. */
  function Navigate(path: Path, session: Session, hops: nat): Screen
    decreases hops
  {
    var screen := Route(path, session);
    if screen.Redirect? && hops > 0 then Navigate(screen.target, session, hops - 1) else screen
  }

  /**
   * Redirects never loop: once the session has loaded, every path settles on a
   * page within two redirects, and the page fits the session: an admin lands on
   * the admin panel, a user on the dashboard, a visitor on the login page.
   */
  lemma RedirectsSettle(path: Path, session: Session)
    requires !session.loading
    ensures Navigate(path, session, 2).Show?
    ensures path in {"/dashboard", "/admin"} ==>
              Navigate(path, session, 2).page ==
                (if session.role.None? then Login
                 else if session.role.value == AdminRole then Admin
                 else Dashboard)
  {
  }

  /** While the session loads, the guarded routes show the spinner and nothing else. */
  lemma LoadingShowsSpinner(session: Session)
    requires session.loading
    ensures Route("/dashboard", session) == Loading && Route("/admin", session) == Loading
  {
  }
}

=== FILE: seqs.dfy ===
/**
 * The array methods the handlers and pages use, on immutable sequences:
 * `filter`, `findIndex` / `find` / `some`, and `sort` with a numeric-key
 * comparator (descending, stable, as ECMAScript 2019 requires of `sort`).
 */
module Seqs {
  import opened Wrappers

  /** `xs.filter(keep)`: the kept elements, each as often as in `xs`. */
  function Filter<T>(xs: seq<T>, keep: T -> bool): (r: seq<T>)
    ensures |r| <= |xs|
    ensures forall i :: 0 <= i < |r| ==> keep(r[i])
  {
    if xs == [] then []
    else
      var rest := Filter(xs[1..], keep);
      if keep(xs[0]) then [xs[0]] + rest else rest
  }

  /** Each accepted value is kept exactly as often as it occurs, each rejected one not at all. */
  lemma {:induction false} FilterCounts<T(!new)>(xs: seq<T>, keep: T -> bool)
    ensures forall x :: multiset(Filter(xs, keep))[x] == if keep(x) then multiset(xs)[x] else 0
    decreases |xs|
  {
    if xs != [] {
      FilterCounts(xs[1..], keep);
      assert xs == [xs[0]] + xs[1..];
    }
  }

  /** Filtering a concatenation filters each part: `filter` keeps the input order. */
  lemma {:induction false} FilterConcat<T(!new)>(a: seq<T>, b: seq<T>, keep: T -> bool)
    ensures Filter(a + b, keep) == Filter(a, keep) + Filter(b, keep)
    decreases |a|
  {
    if a == [] {
      assert a + b == b;
    } else {
      assert (a + b)[1..] == a[1..] + b;
      FilterConcat(a[1..], b, keep);
    }
  }

  /** A filter that keeps every element returns the input itself. */
  lemma {:induction false} FilterKeepsAll<T(!new)>(xs: seq<T>, keep: T -> bool)
    requires forall i :: 0 <= i < |xs| ==> keep(xs[i])
    ensures Filter(xs, keep) == xs
    decreases |xs|
  {
    if xs != [] {
      FilterKeepsAll(xs[1..], keep);
    }
  }

  /** Two filters applied one after the other give the same sequence in either order. */
  lemma {:induction false} FilterCommutes<T(!new)>(xs: seq<T>, a: T -> bool, b: T -> bool)
    ensures Filter(Filter(xs, a), b) == Filter(Filter(xs, b), a)
    decreases |xs|
  {
    if xs != [] {
      FilterCommutes(xs[1..], a, b);
      var x := xs[0];
      var fa := Filter(xs[1..], a);
      var fb := Filter(xs[1..], b);
      if a(x) {
        assert Filter(xs, a) == [x] + fa;
        assert ([x] + fa)[1..] == fa;
      }
      if b(x) {
        assert Filter(xs, b) == [x] + fb;
        assert ([x] + fb)[1..] == fb;
      }
    }
  }

  /** Removing the only element at position `i` that fails `keep` is filtering by `keep`. */
  lemma {:induction false} RemoveIsFilter<T(!new)>(xs: seq<T>, i: nat, keep: T -> bool)
    requires i < |xs| && !keep(xs[i])
    requires forall j :: 0 <= j < |xs| && j != i ==> keep(xs[j])
    ensures xs[..i] + xs[i + 1..] == Filter(xs, keep)
    decreases i
  {
    var tail := xs[1..];
    if i == 0 {
      forall j | 0 <= j < |tail| ensures keep(tail[j]) {
        assert tail[j] == xs[j + 1];
      }
      FilterKeepsAll(tail, keep);
      assert xs[..0] + xs[1..] == tail;
    } else {
      forall j | 0 <= j < |tail| && j != i - 1 ensures keep(tail[j]) {
        assert tail[j] == xs[j + 1];
      }
      assert tail[i - 1] == xs[i];
      RemoveIsFilter(tail, i - 1, keep);
      assert xs[..i] == [xs[0]] + tail[..i - 1];
      assert xs[i + 1..] == tail[i..];
    }
  }

  /** `xs.findIndex(p)`, with `None` for -1: the first position satisfying `p`. */
  function FindIndex<T>(xs: seq<T>, p: T -> bool): (r: Option<nat>)
    ensures r.Some? ==> r.value < |xs| && p(xs[r.value])
    ensures r.Some? ==> forall j :: 0 <= j < r.value ==> !p(xs[j])
    ensures r.None? <==> forall j :: 0 <= j < |xs| ==> !p(xs[j])
  {
    if xs == [] then None
    else if p(xs[0]) then Some(0)
    else match FindIndex(xs[1..], p)
      case None => None
      case Some(k) => Some(k + 1)
  }

  /** Keys never increase from left to right. */
  ghost predicate SortedDesc<T>(xs: seq<T>, key: T -> int) {
    forall i, j :: 0 <= i < j < |xs| ==> key(xs[i]) >= key(xs[j])
  }

  /** A head whose key is at least that of a sorted tail's first element keeps it sorted. */
  lemma ConsSorted<T>(h: T, rest: seq<T>, key: T -> int)
    requires SortedDesc(rest, key)
    requires rest != [] ==> key(h) >= key(rest[0])
    ensures SortedDesc([h] + rest, key)
  {
    var r := [h] + rest;
    forall i, j | 0 <= i < j < |r| ensures key(r[i]) >= key(r[j]) {
      assert r[j] == rest[j - 1];
      if i == 0 {
        assert j - 1 == 0 || key(rest[0]) >= key(rest[j - 1]);
      } else {
        assert r[i] == rest[i - 1];
      }
    }
  }

  /** Places `x` in front of the first element whose key is not larger. */
  function Insert<T(==)>(x: T, xs: seq<T>, key: T -> int): (r: seq<T>)
    requires SortedDesc(xs, key)
    ensures SortedDesc(r, key)
    ensures multiset(r) == multiset(xs) + multiset{x}
    ensures |r| == |xs| + 1 && (r[0] == x || (xs != [] && r[0] == xs[0]))
  {
    if xs == [] || key(x) >= key(xs[0]) then
      ConsSorted(x, xs, key);
      [x] + xs
    else
      assert xs == [xs[0]] + xs[1..];
      var rest := Insert(x, xs[1..], key);
      assert |xs| > 1 ==> key(xs[0]) >= key(xs[1]);
      ConsSorted(xs[0], rest, key);
      assert multiset([xs[0]] + rest) == multiset{xs[0]} + multiset(rest);
      [xs[0]] + rest
  }

  /** An element ranked below the head is inserted after it. */
  lemma InsertPastHead<T>(x: T, h: T, rest: seq<T>, key: T -> int)
    requires SortedDesc([h] + rest, key)
    requires key(x) < key(h)
    ensures SortedDesc(rest, key)
    ensures Insert(x, [h] + rest, key) == [h] + Insert(x, rest, key)
  {
    var v := [h] + rest;
    assert v[0] == h && v[1..] == rest;
    forall i, j | 0 <= i < j < |rest| ensures key(rest[i]) >= key(rest[j]) {
      assert rest[i] == v[i + 1] && rest[j] == v[j + 1];
    }
  }

  /**
   * `xs.sort((a, b) => key(b) - key(a))`: the elements of `xs` by descending key;
   * inserting each element in front of its equals keeps the input order among them.
   */
  function SortDesc<T(==)>(xs: seq<T>, key: T -> int): (r: seq<T>)
    ensures SortedDesc(r, key)
    ensures multiset(r) == multiset(xs)
  {
    if xs == [] then []
    else
      assert xs == [xs[0]] + xs[1..];
      Insert(xs[0], SortDesc(xs[1..], key), key)
  }

  /** A filter keeps no key above a bound every element respects. */
  lemma {:induction false} FilterBounded<T>(xs: seq<T>, keep: T -> bool, key: T -> int, bound: int)
    requires forall i :: 0 <= i < |xs| ==> key(xs[i]) <= bound
    ensures forall i :: 0 <= i < |Filter(xs, keep)| ==> key(Filter(xs, keep)[i]) <= bound
    decreases |xs|
  {
    if xs != [] {
      FilterBounded(xs[1..], keep, key, bound);
    }
  }

  /** Filtering a sorted sequence leaves it sorted. */
  lemma {:induction false} FilterSorted<T>(xs: seq<T>, keep: T -> bool, key: T -> int)
    requires SortedDesc(xs, key)
    ensures SortedDesc(Filter(xs, keep), key)
    decreases |xs|
  {
    if xs != [] {
      var rest := Filter(xs[1..], keep);
      FilterSorted(xs[1..], keep, key);
      if keep(xs[0]) {
        FilterBounded(xs[1..], keep, key, key(xs[0]));
        ConsSorted(xs[0], rest, key);
      }
    }
  }

  /** Inserting in front keeps that order under a filter: the element goes before every kept one. */
  lemma InsertFrontFiltered<T>(x: T, ys: seq<T>, keep: T -> bool, key: T -> int)
    requires SortedDesc(ys, key)
    requires ys == [] || key(x) >= key(ys[0])
    ensures (FilterSorted(ys, keep, key);
             Filter(Insert(x, ys, key), keep) == if keep(x) then Insert(x, Filter(ys, keep), key) else Filter(ys, keep))
  {
    FilterSorted(ys, keep, key);
    var f := Filter(ys, keep);
    assert Insert(x, ys, key) == [x] + ys;
    assert ([x] + ys)[1..] == ys;
    if keep(x) && f != [] {
      FilterBounded(ys, keep, key, key(ys[0]));
    }
  }

  /** Filtering after an insertion is inserting into the filtered sequence, or nothing when `x` is rejected. */
  lemma {:induction false} FilterInsert<T>(x: T, ys: seq<T>, keep: T -> bool, key: T -> int)
    requires SortedDesc(ys, key)
    ensures (FilterSorted(ys, keep, key);
             Filter(Insert(x, ys, key), keep) == if keep(x) then Insert(x, Filter(ys, keep), key) else Filter(ys, keep))
    decreases |ys|
  {
    FilterSorted(ys, keep, key);
    if ys == [] || key(x) >= key(ys[0]) {
      InsertFrontFiltered(x, ys, keep, key);
    } else {
      var tail := ys[1..];
      var rest := Insert(x, tail, key);
      assert Insert(x, ys, key) == [ys[0]] + rest;
      assert ([ys[0]] + rest)[1..] == rest;
      FilterInsert(x, tail, keep, key);
      FilterSorted(tail, keep, key);
      var ft := Filter(tail, keep);
      if keep(ys[0]) {
        assert Filter(ys, keep) == [ys[0]] + ft;
        assert ([ys[0]] + ft)[1..] == ft;
      }
    }
  }

  /** `filter` and the stable sort commute: filtering a sorted copy is sorting a filtered one. */
  lemma {:induction false} FilterSortDesc<T>(xs: seq<T>, keep: T -> bool, key: T -> int)
    ensures Filter(SortDesc(xs, key), keep) == SortDesc(Filter(xs, keep), key)
    decreases |xs|
  {
    if xs != [] {
      var x := xs[0];
      var tail := xs[1..];
      FilterSortDesc(tail, keep, key);
      FilterInsert(x, SortDesc(tail, key), keep, key);
      var ft := Filter(tail, keep);
      if keep(x) {
        assert Filter(xs, keep) == [x] + ft;
        assert ([x] + ft)[0] == x && ([x] + ft)[1..] == ft;
      }
    }
  }

  /** Sorting with a last element that outranks all others puts it first and sorts the rest as before. */
  lemma {:induction false} SortDescNewestLast<T>(xs: seq<T>, x: T, key: T -> int)
    requires forall i :: 0 <= i < |xs| ==> key(xs[i]) < key(x)
    ensures SortDesc(xs + [x], key) == [x] + SortDesc(xs, key)
    decreases |xs|
  {
    if xs == [] {
      assert xs + [x] == [x];
      assert [x][1..] == [];
    } else {
      var a := xs[0];
      var tail := xs[1..];
      assert (xs + [x])[0] == a;
      assert (xs + [x])[1..] == tail + [x];
      SortDescNewestLast(tail, x, key);
      var st := SortDesc(tail, key);
      assert Insert(a, [x] + st, key) == [x] + Insert(a, st, key) by {
        assert ([x] + st)[0] == x;
        assert ([x] + st)[1..] == st;
      }
    }
  }

  /** `xs.slice(0, n)`: the first `n` elements, or all of them when there are fewer. */
  function Take<T>(xs: seq<T>, n: nat): (r: seq<T>)
    ensures |r| == if |xs| <= n then |xs| else n
    ensures xs == r + xs[|r|..]
  {
    if |xs| <= n then xs else xs[..n]
  }

  /** A prefix of a sorted sequence is sorted and holds some of its elements. */
  lemma TakeOfSorted<T>(xs: seq<T>, n: nat, key: T -> int)
    requires SortedDesc(xs, key)
    ensures SortedDesc(Take(xs, n), key)
    ensures multiset(Take(xs, n)) <= multiset(xs)
  {
    var r := Take(xs, n);
    assert multiset(xs) == multiset(r) + multiset(xs[|r|..]) by {
      assert xs == r + xs[|r|..];
    }
    forall i, j | 0 <= i < j < |r| ensures key(r[i]) >= key(r[j]) {
      assert r[i] == xs[i] && r[j] == xs[j];
    }
  }

  /** What a prefix of a sorted sequence leaves out ranks no higher than anything in it, and the prefix is full. */
  lemma TakeKeepsTop<T>(xs: seq<T>, n: nat, key: T -> int, x: T)
    requires SortedDesc(xs, key)
    requires multiset(Take(xs, n))[x] < multiset(xs)[x]
    ensures |Take(xs, n)| == n
    ensures forall i :: 0 <= i < n ==> key(Take(xs, n)[i]) >= key(x)
  {
    var r := Take(xs, n);
    var tail := xs[|r|..];
    assert xs == r + tail;
    assert multiset(xs) == multiset(r) + multiset(tail);
    assert x in multiset(tail);
    var k :| 0 <= k < |tail| && tail[k] == x;
    assert xs[|r| + k] == x;
    forall i | 0 <= i < |r| ensures key(r[i]) >= key(x) {
      assert r[i] == xs[i];
    }
  }
}

=== FILE: text.dfy ===
/**
 * The string primitives the server and client lean on: `String.prototype.trim`,
 * `toLowerCase` / `toUpperCase` (on ASCII letters), prefix and suffix tests, and
 * the decimal rendering `Number.prototype.toString` gives a natural number.
 */
module Text {

  /** ECMAScript WhiteSpace and LineTerminator code points: what `trim` strips. */
  predicate IsSpace(c: char) {
    || c == '\t' || c == '\n' || c == '\U{000B}' || c == '\U{000C}' || c == '\r' || c == ' '
    || c == '\U{00A0}' || c == '\U{1680}' || ('\U{2000}' <= c <= '\U{200A}')
    || c == '\U{2028}' || c == '\U{2029}' || c == '\U{202F}' || c == '\U{205F}'
    || c == '\U{3000}' || c == '\U{FEFF}'
  }

  predicate AllSpace(s: string) {
    forall i :: 0 <= i < |s| ==> IsSpace(s[i])
  }

  /** How many white-space characters `s` starts with. */
  function LeadingSpaces(s: string): (n: nat)
    ensures n <= |s|
    ensures forall i :: 0 <= i < n ==> IsSpace(s[i])
    ensures n < |s| ==> !IsSpace(s[n])
  {
    if s != [] && IsSpace(s[0]) then 1 + LeadingSpaces(s[1..]) else 0
  }

  function TrimStart(s: string): (r: string)
    ensures |r| <= |s| && r == s[|s| - |r|..]
    ensures AllSpace(s[..|s| - |r|])
    ensures r != [] ==> !IsSpace(r[0])
  {
    var n := LeadingSpaces(s);
    assert forall i :: 0 <= i < n ==> s[..n][i] == s[i];
    s[n..]
  }

  function TrimEnd(s: string): (r: string)
    ensures |r| <= |s| && r == s[..|r|]
    ensures AllSpace(s[|r|..])
    ensures r != [] ==> !IsSpace(r[|r| - 1])
  {
    if s != [] && IsSpace(s[|s| - 1]) then
      var t := TrimEnd(s[..|s| - 1]);
      assert s[..|s| - 1][..|t|] == s[..|t|];
      assert s[|t|..] == s[..|s| - 1][|t|..] + [s[|s| - 1]];
      t
    else s
  }

  /** `r` is `s` with a run of white space cut from each end. */
  ghost predicate CutFrom(r: string, s: string) {
    exists a, b :: 0 <= a <= b <= |s| && r == s[a..b] && AllSpace(s[..a]) && AllSpace(s[b..])
  }

  /** `s.trim()`. */
  function Trim(s: string): (r: string)
    ensures |r| <= |s|
    ensures r != [] ==> !IsSpace(r[0]) && !IsSpace(r[|r| - 1])
    ensures r == [] <==> AllSpace(s)
  {
    var t := TrimStart(s);
    assert t == [] ==> s == s[..|s| - |t|];
    TrimEnd(t)
  }

  /** `s.trim()` is `s` with the white space cut from both ends, and no more. */
  lemma TrimCutsSpace(s: string)
    ensures CutFrom(Trim(s), s)
  {
    var t := TrimStart(s);
    var r := TrimEnd(t);
    var a := |s| - |t|;
    assert r == s[a..a + |r|];
    assert s[a + |r|..] == t[|r|..];
  }

  /** Trimming twice is trimming once. */
  lemma TrimIdempotent(s: string)
    ensures Trim(Trim(s)) == Trim(s)
  {
  }

  predicate IsUpper(c: char) {
    'A' <= c <= 'Z'
  }

  predicate IsLower(c: char) {
    'a' <= c <= 'z'
  }

  function LowerChar(c: char): (r: char)
    ensures !IsUpper(r)
    ensures IsUpper(c) ==> IsLower(r) && r as int - c as int == 32
    ensures !IsUpper(c) ==> r == c
  {
    if IsUpper(c) then (c as int + 32) as char else c
  }

  function UpperChar(c: char): (r: char)
    ensures !IsLower(r)
    ensures IsLower(c) ==> IsUpper(r) && c as int - r as int == 32
    ensures !IsLower(c) ==> r == c
  {
    if IsLower(c) then (c as int - 32) as char else c
  }

  /** `s.toLowerCase()`, restricted to the ASCII letters. */
  function ToLower(s: string): (r: string)
    ensures |r| == |s|
    ensures forall i :: 0 <= i < |s| ==> r[i] == LowerChar(s[i])
  {
    seq(|s|, i requires 0 <= i < |s| => LowerChar(s[i]))
  }

  /** `s.toUpperCase()`, restricted to the ASCII letters. */
  function ToUpper(s: string): (r: string)
    ensures |r| == |s|
    ensures forall i :: 0 <= i < |s| ==> r[i] == UpperChar(s[i])
  {
    seq(|s|, i requires 0 <= i < |s| => UpperChar(s[i]))
  }

  /** Lower-casing a lower-cased string changes nothing. */
  lemma ToLowerIdempotent(s: string)
    ensures ToLower(ToLower(s)) == ToLower(s)
  {
  }

  predicate StartsWith(s: string, prefix: string) {
    |prefix| <= |s| && s[..|prefix|] == prefix
  }

  predicate EndsWith(s: string, suffix: string) {
    |suffix| <= |s| && s[|s| - |suffix|..] == suffix
  }

  predicate IsDigit(c: char) {
    '0' <= c <= '9'
  }

  predicate AllDigits(s: string) {
    forall i :: 0 <= i < |s| ==> IsDigit(s[i])
  }

  function DigitChar(d: nat): (c: char)
    requires d < 10
    ensures IsDigit(c)
  {
    ('0' as int + d) as char
  }

  /** `n.toString()` for a natural number: its shortest base-10 numeral. */
  function DecimalString(n: nat): (r: string)
    ensures |r| >= 1
    ensures AllDigits(r)
    ensures r[0] == '0' <==> n == 0
    decreases n
  {
    if n < 10 then [DigitChar(n)] else DecimalString(n / 10) + [DigitChar(n % 10)]
  }

  /** The number a base-10 numeral denotes: the inverse of `DecimalString`. */
  function DecimalValue(s: string): nat
    requires AllDigits(s)
  {
    if s == [] then 0 else DecimalValue(s[..|s| - 1]) * 10 + (s[|s| - 1] as int - '0' as int)
  }

  /** Reading back a rendered number gives the number. */
  lemma {:induction false} DecimalRoundTrip(n: nat)
    ensures DecimalValue(DecimalString(n)) == n
    decreases n
  {
    if n >= 10 {
      var prefix := DecimalString(n / 10);
      var r := prefix + [DigitChar(n % 10)];
      assert r[..|r| - 1] == prefix;
      DecimalRoundTrip(n / 10);
    }
  }

  /** Distinct numbers render as distinct strings. */
  lemma DecimalInjective(m: nat, n: nat)
    requires DecimalString(m) == DecimalString(n)
    ensures m == n
  {
    DecimalRoundTrip(m);
    DecimalRoundTrip(n);
  }

  /** Numbers from 1000 to 9999 render as exactly four digits, the first not zero. */
  lemma FourDigitNumeral(n: nat)
    requires 1000 <= n <= 9999
    ensures |DecimalString(n)| == 4
    ensures AllDigits(DecimalString(n)) && DecimalString(n)[0] != '0'
  {
    assert |DecimalString(n / 1000)| == 1;
    assert |DecimalString(n / 100)| == 2;
    assert |DecimalString(n / 10)| == 3;
  }
}

=== FILE: tokens.dfy ===
/**
 * JSON Web Tokens (RFC 7519) as the server uses them: a signed claim set with an
 * `exp` claim (section 4.1.4 of RFC 7519) in whole seconds. The signature is
 * abstract: a token records the key it was signed with, and verification
 * accepts it only under that key and only while the clock, in whole seconds,
 * is before `exp`.
 */
module Tokens {
  import opened Wrappers

  /** The two claim sets the server signs: a pass's QR payload and a login session. */
  datatype Claims =
    | PassClaims(passId: string)
    | SessionClaims(id: string, role: string, name: string)

  /** A scanned or submitted token: a signed claim set, or text that does not parse as one. */
  datatype Token =
    | Jwt(claims: Claims, exp: int, key: string)
    | Malformed

  const FallbackSecret: string := "fallback_secret"

  /** `process.env.JWT_SECRET || 'fallback_secret'`. */
  function JwtSecret(configured: Option<string>): (key: string)
    ensures key != []
    ensures configured.Some? && configured.value != [] ==> key == configured.value
    ensures configured.None? || configured.value == [] ==> key == FallbackSecret
  {
    if configured.Some? && configured.value != [] then configured.value else FallbackSecret
  }

  /** `jwt.sign(claims, key, { expiresIn })` at `nowMs`: `exp` is the signing second plus the lifetime. */
  function Sign(claims: Claims, nowMs: int, lifetimeSec: nat, key: string): (t: Token)
    ensures t.Jwt? && t.claims == claims && t.key == key
    ensures (t.exp - lifetimeSec) * 1000 <= nowMs < (t.exp - lifetimeSec + 1) * 1000
  {
    Jwt(claims, nowMs / 1000 + lifetimeSec, key)
  }

  /** `jwt.verify(token, key)` at `nowMs`: the claims, or `None` where it throws. */
  function Decode(t: Token, nowMs: int, key: string): (r: Option<Claims>)
    ensures r.Some? <==> t.Jwt? && t.key == key && nowMs / 1000 < t.exp
    ensures r.Some? ==> r.value == t.claims
  {
    match t
    case Malformed => None
    case Jwt(claims, exp, k) => if k == key && nowMs / 1000 < exp then Some(claims) else None
  }

  /** A token decodes, under the key that signed it, to the claims it was signed with until its lifetime runs out. */
  lemma SignDecodeRoundTrip(claims: Claims, signedAt: int, lifetimeSec: nat, key: string, nowMs: int)
    requires signedAt <= nowMs < signedAt + lifetimeSec * 1000 - 999
    ensures Decode(Sign(claims, signedAt, lifetimeSec, key), nowMs, key) == Some(claims)
  {
  }

  /** Once `lifetimeSec` seconds have passed since signing, the token no longer decodes. */
  lemma SignedTokenLapses(claims: Claims, signedAt: int, lifetimeSec: nat, key: string, nowMs: int)
    requires nowMs >= signedAt + lifetimeSec * 1000
    ensures Decode(Sign(claims, signedAt, lifetimeSec, key), nowMs, key) == None
  {
    var t := Sign(claims, signedAt, lifetimeSec, key);
    assert (signedAt / 1000) * 1000 <= signedAt;
    assert nowMs / 1000 >= (signedAt + lifetimeSec * 1000) / 1000 == signedAt / 1000 + lifetimeSec;
  }

  /** A token signed under another key never decodes. */
  lemma ForeignKeyRejected(t: Token, nowMs: int, key: string)
    requires t.Jwt? && t.key != key
    ensures Decode(t, nowMs, key) == None
  {
  }
}

=== FILE: wrappers.dfy ===
/** Optional values: JavaScript's `undefined` / missing field, made explicit. */
module Wrappers {

  datatype Option<+T> = None | Some(value: T) {

    /** The wrapped value, or `default` when there is none. */
    function GetOr(default: T): T {
      match this
      case Some(v) => v
      case None => default
    }
  }

  /** Looks `k` up in `m`, as `Map.prototype.get` does: `None` plays `undefined`. */
  function Lookup<K, V>(m: map<K, V>, k: K): (r: Option<V>)
    ensures r.Some? <==> k in m
    ensures r.Some? ==> r.value == m[k]
  {
    if k in m then Some(m[k]) else None
  }
}
